=== FILE: README.md ===
# Local Twitter bookmark search: a Dafny model

This project models the core of a two-part local bookmark tool. The first part is an
indexer (`build_index.py`). It folds exported bookmark JSON files into a SQLite store,
resolving each media URL to a file already on disk. The second part is a viewer
(`app.py`), which searches that store.

The model covers four pieces:

- **Media file resolution** (`Urls`, `Seqs`, `MediaResolver`).
  - `url_to_candidates` guesses file names from a URL's last path segment.
    - It follows the splitting rules of CPython 3.12's `urlparse`.
    - It reads the first non-empty `format` value the way `parse_qs` does.
    - It drops repeated names, keeping the first occurrence.
  - `choose_existing` picks the first guess present in the media directory. The directory
    is a `set<string>` of file names.
  - Attachments try their original, thumbnail and primary URLs in that order.
- **Ingestion** (`Store`, `PyInt`, `ImportTracker`, `Ingest`).
  - The store is three maps: tweets by id, media by `(tweet_id, idx)`, and imports by path.
  - A source file is a root value whose list elements are records with optional fields.
  - `import_one_json` is a fold over the records:
    - it skips blank ids;
    - it skips ids already stored, including ids stored earlier in the same file;
    - it inserts one tweet row per new id;
    - it upserts one media row per attachment position.
  - A non-list root, a non-object record, a counter outside SQLite's 64-bit integers, a
    truthy non-list `media` value or a non-object attachment raises. A falsy `media` value
    (`0`, `""`, `{}`, `false`, null) reads as the empty list. The model returns an
    `ImportError` naming the element.
  - `should_skip_file` and `mark_file_imported` are the fingerprint cache.
  - The fold is written over a `Rules` value. `Rules` says how ids are read, how timestamps
    are normalised, and how avatar and attachment URLs are resolved. Its lemmas hold for
    every `Rules`. `ImportOne` applies the fold with `SourceRules`, the conversions of
    `import_one_json`.
- **Search** (`Ordering`, `Search`).
  - `search` is modelled as a query over the tweets table, held as a sequence in rowid
    order. The query has four parts:
    - a conjunction of the optional filters, built from the same clause list as the query
      builder;
    - a choice between the ranked full-text query and the `LIKE` substring fallback;
    - an order: `bm25` ascending, or `created_at_utc` descending with NULLs last;
    - `LIMIT`.
  - The full-text index is an abstract value. It says whether the engine accepts a query,
    which documents match it, and each document's `bm25` rank. A rejected query raises.
  - `fetch_media` lists one tweet's attachment rows by `idx`.
- **Interface strings** (`I18n`). These are the English and Chinese tables and the `t`
  lookup with its fallbacks.

`Wrappers` provides `Option` and `Result`. `Text` provides Python's `str.strip()`, ASCII
case folding, substring search, and the binary TEXT order SQLite uses.

Some behaviours of the code are easy to misread, and the model keeps them as written:

- `parse_dt` returns a timestamp it cannot parse unchanged, and that text is stored in
  `created_at_utc`. The column is NULL only when the raw timestamp is empty. The normaliser
  is the `parseDt` parameter.
- `search` reports its mode as the string `"fts"` or `"like"`.
- `limit` is bound as given. SQLite reads a negative limit as no limit, so every qualifying
  row is returned, and the "at most `limit` rows" guarantee holds only for `limit >= 0`.
- The substring fallback orders by the text of `created_at_utc` in binary order. It does not
  compare timestamps as times.
- A JSON `null` id becomes the string `"None"` under `str()`. That id is stored, not skipped
  as blank.
- `json.load` accepts `"\u0000"`, and `sqlite3` stores the whole string. SQLite's `LIKE` reads
  the field and the pattern only up to their first U+0000. So the fallback never finds text
  after a U+0000 in a field, and a query holding U+0000 matches every field that ends with
  the query's part before it.

## Model

| member | source | states |
|---|---|---|
| Text.Strip | build_index.py:25 | `s.strip()` is `s` minus a whitespace-only prefix and suffix, using Python's `isspace` set. It neither starts nor ends with whitespace, it is empty exactly when `s` is all whitespace, and every character it holds occurs in `s`. |
| Text.Lower | build_index.py:33 | Lower-casing keeps the length and folds each character on its own, by `LowerChar`. |
| Text.LowerChar | build_index.py:33 | `A`-`Z` become the letter 32 code points later, `a`-`z`; every other character is kept. |
| Text.ContainsLower | app.py:81 | An exact-case occurrence of the needle is still an occurrence after both sides are case-folded. |
| Text.EmptyOccursEverywhere | app.py:77 | The empty string occurs in every string, so the lone `%` pattern matches every row. |
| Text.StrLeTotal | app.py:82 | Binary TEXT order compares any two strings. |
| Text.StrLeTransitive | app.py:82 | Binary TEXT order is transitive. |
| Text.StrLeAntisymmetric | app.py:82 | Two strings ordered both ways are equal. |
| Seqs.Dedup | build_index.py:40-46 | The `seen`-set loop's output has no repeats and holds exactly the input's values, each in the order of its first occurrence. |
| Seqs.DedupAppendDistinct | build_index.py:40-46 | Deduplicating `s + t`, with `t` free of repeats, gives `Dedup(s)` followed by `t`'s values that are missing from `s`, in order. |
| Seqs.DedupDistinct | build_index.py:40-46 | A list without repeats passes through the `seen`-set loop unchanged. |
| PyInt.NatToDecimal | build_index.py:169 | `str(n)` is a non-empty string of decimal digits with no leading zero. |
| PyInt.IntToDecimal | build_index.py:169 | `str(i)` starts with `-` exactly when `i` is negative. |
| PyInt.DecimalValue | build_index.py:169 | The digits `str(n)` produces denote `n`. |
| PyInt.IntStrip | build_index.py:63-67 | The whitespace `int()` skips is removed from both ends: the result has none at either end, keeps a first or last character that is not such whitespace, and draws its characters from the input. |
| PyInt.IntStripIsStrip | build_index.py:63-67 | On a string without the separators U+001C to U+001F, `int()`'s stripping agrees with `str.strip()`. |
| PyInt.ParseSigned | build_index.py:63-67 | A stripped string reads as an integer only when it starts with a digit or a sign and ends with a digit. |
| PyInt.ParseInt | build_index.py:63-67 | `int()` of a blank string raises, which is read as NULL. So does a string that starts or ends with one of U+001C to U+001F, which `str.isspace()` accepts but `int()` does not skip. |
| PyInt.ParseUnsigned | build_index.py:63-67 | `int()` reads a plain string of at most 4300 digits as the number it denotes. A longer one raises, which reads as NULL. |
| PyInt.ParseNegative | build_index.py:63-67 | `int()` reads `-` followed by at most 4300 digits as the negated number. More digits raise. |
| PyInt.DecimalRoundTrip | build_index.py:63-67 | `int(str(i)) == i` for every integer of at most 4300 digits. For a longer one, `int()` raises. |
| Urls.FindAny | build_index.py:24 | The first position of a stop character, or the length when there is none. Every character before it is not a stop character. |
| Urls.AfterLast | build_index.py:25 | `os.path.basename`: the suffix after the last separator, which contains no separator. |
| Urls.LStripC0 | build_index.py:24 | `urlsplit` drops leading C0 control characters and spaces, and only those. |
| Urls.RemoveUnsafe | build_index.py:24 | `urlsplit` deletes tab, CR and LF wherever they occur and keeps every other character. Text without them is unchanged, and a single character is kept or dropped on its own. |
| Urls.RemoveUnsafeAppend | build_index.py:24 | The deletion works character by character in order: on a concatenation it is the deletion on each part, concatenated. |
| Urls.SplitOnce | build_index.py:32 | `s.split(c, 1)`: the head has no `c`, and head, `c` and tail rebuild `s`. |
| Urls.SplitScheme | build_index.py:24 | A scheme is split off exactly when the text before the first `:` is a valid scheme (an ASCII letter, then letters, digits, `+`, `-`, `.`). It is that text lower-cased, and the rest is what follows the `:`. Otherwise the input is left whole. |
| Urls.SplitNetloc | build_index.py:24 | After a leading `//`, the netloc runs up to the first `/`, `?` or `#`, and `//`, netloc and rest rebuild the input. Without `//` there is no netloc. |
| Urls.Split | build_index.py:24 | `urlsplit` takes the scheme, then the netloc, off the cleaned URL, and splits the rest by `SplitTail`. |
| Urls.SplitTail | build_index.py:24 | The fragment follows the first `#`, the query follows the first `?` before it, and the path is what precedes both. The path has no `?` or `#`, the query no `#`, and the parts with their separators rebuild the text. |
| Urls.CutParams | build_index.py:24 | `;params` are cut at the first `;` after the last `/`. The result is a prefix of the path with no `;` in its last segment; when shorter, the path continues with `;` and has no `/` after the cut. |
| Urls.AfterLastAppend | build_index.py:24-25 | Text without the separator that follows a separator, or starts the string, is exactly the last segment. |
| Urls.Parse | build_index.py:24 | `urlparse` agrees with `urlsplit` on every part except the path, which is cut at `;params` for the schemes that use them. |
| Urls.BaseName | build_index.py:25 | The basename is the last `/`-segment of the parsed path with surrounding whitespace stripped. It contains no `/` and has no surrounding whitespace. |
| Urls.SplitOn | build_index.py:32 | `s.split(c)` gives at least one part, no part contains `c`, and joining the parts with `c` gives back `s`. |
| Urls.SplitJoin | build_index.py:32 | Splitting a `c`-join of `c`-free parts gives back the parts. |
| Urls.PlusToSpace | build_index.py:32 | `parse_qs` reads `+` as a space and keeps every other character, at the same positions. |
| Urls.FirstFormat | build_index.py:32 | `qs.get("format", [""])[0]` is empty exactly when no pair is `format=<non-empty value>`. Otherwise it is the `+`-decoded value of the first such pair. |
| Urls.FormatParam | build_index.py:32-33 | The lower-cased format value is empty exactly when the URL's query has no `format=<non-empty value>` pair. Otherwise it is the lower-cased, `+`-decoded value of the first such pair. |
| MediaResolver.RawCandidates | build_index.py:29-38 | The candidate list before deduplication starts with the basename. A basename with `.` gives only itself, and every other entry is the basename with the format or a fixed extension. |
| MediaResolver.Suffixed | build_index.py:37-38 | One `base.ext` name per extension, in the extensions' order. |
| MediaResolver.ExtensionsDistinct | build_index.py:37 | The fixed extension list has no repeats and no empty extension. |
| MediaResolver.WithExtInjective | build_index.py:35-38 | Distinct extensions give distinct `base.ext` names. |
| MediaResolver.SuffixedDistinct | build_index.py:37-38 | Suffixing distinct extensions gives distinct names. |
| MediaResolver.UnseenSuffixed | build_index.py:34-46 | Of the fixed guesses, only `base.<format>` repeats an earlier candidate, so deduplication drops exactly that one. |
| MediaResolver.CandidateShape | build_index.py:29-46 | For a basename without `.`, deduplication gives: the basename, then `base.<format>` when the format is non-empty, then every fixed guess except the format's. |
| MediaResolver.CandidatesFor | build_index.py:29-46 | A basename containing `.` yields exactly `[base]`; any other basename yields the shape above. |
| MediaResolver.CandidatesDistinct | build_index.py:40-46 | The candidate list has no repeats, and a non-empty basename gives no empty candidate. |
| MediaResolver.CandidatesLead | build_index.py:29-35 | For a basename without `.`, the bare basename is tried first and `base.<format>` second when a format is given. |
| MediaResolver.UrlToCandidates | build_index.py:21-27 | An empty URL, or a URL whose stripped basename is empty, yields `[]`. Any other URL yields the candidates for its basename and lower-cased `format` value. |
| MediaResolver.ChooseExisting | build_index.py:48-53 | The result is None exactly when no candidate is on disk. Otherwise it is a candidate that is on disk, and no earlier candidate is on disk. |
| MediaResolver.ChooseSkipsEarlier | build_index.py:48-53 | A candidate listed before every occurrence of the chosen file is not on disk. |
| MediaResolver.ResolveUrl | build_index.py:195-196 | An empty URL resolves to nothing. A URL resolves to nothing exactly when none of its candidates is on disk. Otherwise it resolves to a candidate on disk, and no candidate before that one is on disk. |
| MediaResolver.FirstResolvingRole | build_index.py:227-233 | The roles loop stops at the first non-empty role that resolves. Every earlier role is empty or does not resolve. |
| MediaResolver.ResolveFromRoles | build_index.py:227-233 | `local_file` is None exactly when no non-empty role resolves. Otherwise it is the file of a non-empty role. |
| MediaResolver.RolesPriority | build_index.py:227-233 | The original URL wins when it resolves, then the thumbnail, then the primary URL. |
| MediaResolver.ResolveMediaFile | build_index.py:225-233 | Without a media directory `local_file` is None. A file it names is in the directory. |
| MediaResolver.ResolveAvatar | build_index.py:193-196 | Without a media directory or avatar URL the avatar file is None. With both, it is what the avatar URL resolves to in the directory. |
| MediaResolver.FormatGuessPreferred | build_index.py:29-53 | When the bare basename is missing but `base.<format>` exists, that file is chosen, whichever fixed guesses also exist. |
| MediaResolver.FixedGuessOnlyAsFallback | build_index.py:29-53 | A fixed-extension file is chosen only when neither the bare basename nor `base.<format>` exists. |
| ImportTracker.ShouldSkip | build_index.py:139-147 | A path never imported is not skipped. An imported path is skipped exactly when its size is unchanged and its mtime moved by less than 1e-6. |
| ImportTracker.MarkImported | build_index.py:149-155 | Insert-or-replace writes this path's size, mtime and time. Every other path's record is kept, and no other path is added. |
| ImportTracker.MarkThenSkip | build_index.py:139-155 | A file just marked is skipped next time if its size and mtime are unchanged. |
| ImportTracker.MarkKeepsOtherDecisions | build_index.py:139-155 | Marking one path never changes the skip decision for another path. |
| ImportTracker.ChangedFileNotSkipped | build_index.py:145-147 | A size change, or an mtime change of at least 1e-6, forces re-import. |
| Ingest.PyStr | build_index.py:169-188 | Python's `str()` of a JSON scalar: `"None"`, `"True"`/`"False"`, the decimal text of an integer (with a minus sign exactly when negative), or the string itself. |
| Ingest.RecordId | build_index.py:169 | The id has no surrounding whitespace. A missing id gives `""`, a null id `"None"`, an integer id its decimal text, a boolean id `"True"` or `"False"`, and a string id the string stripped. |
| Ingest.RenderedUnstripped | build_index.py:169 | `str()` of an integer, a boolean or `None` has no surrounding whitespace, so `strip()` keeps it. |
| Ingest.HasMedia | build_index.py:190-191 | For a list `media` value, `has_media` is set exactly when the list is non-empty. |
| Ingest.GetInt | build_index.py:63-67 | `get_int` gives NULL for an absent or null value or a blank string. It gives the integer for an integer and 1 or 0 for a boolean. Any other string is read as PyInt.ParseInt reads it. |
| Ingest.GetIntOfRenderedInt | build_index.py:63-67 | A counter written as the decimal text of an integer reads back as that integer when it has at most 4300 digits, and as NULL otherwise. |
| Ingest.MakeTweet | build_index.py:178-216 | The new row has the record's id, and `has_media` holds exactly when the media value is truthy. Each text column is the field or `""`. `created_at_utc` is NULL exactly when the raw timestamp is empty, and otherwise `parse_dt` of it. `in_reply_to` is NULL exactly when absent or null, and otherwise `str()` of the value. The avatar file is the rules' resolution of the avatar URL. The six counters are `get_int` of their fields. |
| Ingest.TweetAvatarFile | build_index.py:193-196 | Under the source's conversions, `profile_image_file` is None without a media directory or an avatar URL. Otherwise it is what the avatar URL resolves to in the directory. |
| Ingest.MakeMediaRow | build_index.py:219-240 | Attachment `i` of tweet `tid` is written with `tweet_id = tid`, `idx = i`, its type, URL, thumbnail and original (empty when absent), and the local file the rules resolve from those three URLs. |
| Ingest.MediaRowLocalFile | build_index.py:225-233 | Under the source's conversions, `local_file` is the file of the original URL if it resolves, else of the thumbnail, else of the primary URL, and None without a media directory. |
| Ingest.UpsertMedia | build_index.py:219-240 | The media loop only adds or replaces keys, and when it raises it is for a non-object attachment of this record. |
| Ingest.UpsertMediaSucceeds | build_index.py:219-224 | The media loop raises exactly when some attachment is not an object. |
| Ingest.UpsertMediaFailure | build_index.py:219-223 | A failed media loop reports an attachment position that holds a non-object. |
| Ingest.UpsertMediaEffect | build_index.py:219-240 | After the media loop, attachment `k` is stored under `(tid, k)` as built from it. Every other key keeps its row, and no other key is added. |
| Ingest.ImportEntry | build_index.py:167-240 | One record never removes a tweet or media key and leaves `imports` alone. A non-object raises, and any error it reports carries this record's position. |
| Ingest.ImportEntryEffect | build_index.py:167-240 | One record: a non-object raises, and a blank or stored id leaves the store as it was. A fresh id whose counter does not fit a 64-bit integer raises at the tweet INSERT. Otherwise it adds its tweet row and its media rows, and raises when `media` cannot be iterated. |
| Ingest.ImportEntries | build_index.py:164-240 | The record loop never removes a tweet or media key, and an error it reports points at a position inside the file. |
| Ingest.ImportTotals | build_index.py:164-217 | A completed loop counts every record (`total == len(tweets)`), `inserted <= total`, and the imports table is untouched. |
| Ingest.ImportOne | build_index.py:157-242 | A non-list root raises. A completed import reports `total` equal to the number of records and `inserted <= total`, and leaves `imports` alone. |
| Ingest.ImportAllObjects | build_index.py:167-169 | A completed import met only object records. |
| Ingest.ImportTweetKeys | build_index.py:169-217 | The stored ids after import are the old ids plus the file's non-blank ids. No existing tweet row changes. |
| Ingest.ImportInsertedCount | build_index.py:198-217 | `inserted` equals the number of ids the import added to the store. |
| Ingest.ImportTweetContent | build_index.py:169-216 | Every id new to the store and present in the file is stored as the tweet built from the file's first record with that id. Later duplicates are skipped. |
| Ingest.ImportMediaRows | build_index.py:219-240 | For each tweet the import introduces, every attachment of its first record is stored under `(tid, position)` as built from that attachment. |
| Ingest.ImportMediaKept | build_index.py:219-240 | Media rows of tweets the import does not introduce stay exactly as they were. |
| Ingest.ImportMediaKeys | build_index.py:219-240 | Every media key after import was already present, or belongs to an introduced tweet at a position of its attachment list. |
| Ingest.ImportKeepsWellFormed | build_index.py:198-240 | Import keeps tweets under their own ids and media rows under their own `(tweet_id, idx)`, each attached to a stored tweet. |
| Ingest.ImportSucceeds | build_index.py:161-240 | A file whose records are objects, each with counters that fit a 64-bit integer and a list of object attachments, always imports. |
| Ingest.ImportFailureLocated | build_index.py:161-240 | A failed import points at a record that is not an object, a record with a counter outside the 64-bit range, a record whose media is not a list, or an attachment that is not an object. |
| Ingest.ImportKnownIds | build_index.py:169-176 | A file whose every id is blank or already stored changes nothing, inserts 0, and counts every record. |
| Ingest.ReimportInsertsNothing | build_index.py:169-176 | Re-running the loop on the same file changes nothing and inserts 0. This holds for any later store that still has the first run's ids. |
| Ingest.ImportOneTwice | build_index.py:157-242 | `import_one_json` run again on an imported file, against a store that keeps its ids, reports `inserted = 0` and changes nothing. |
| Ordering.SortBy | app.py:82 | `ORDER BY` returns a permutation of its input sorted by the given total preorder. |
| Ordering.Where | app.py:81 | `WHERE` keeps every row that satisfies the condition, as often as it occurs, and no other row. |
| Ordering.Limit | app.py:83 | `LIMIT n` keeps a prefix: `n` rows when `0 <= n` is below the row count, and every row otherwise. |
| Ordering.LimitSorted | app.py:83 | `LIMIT n` on a sorted result gives a sorted sub-multiset of at most `n` rows when `n >= 0`, or all rows when the limit is not reached. Every row cut off follows every row kept. |
| Ordering.Select | app.py:78-84 | A query's result is in the requested order and has at most `n` rows when `n >= 0`. |
| Ordering.SelectMeaning | app.py:78-84 | A query returns table rows satisfying the condition, in order, at most `n` of them, and every qualifying row when the limit is not reached. |
| Ordering.SelectTopRows | app.py:78-84 | A qualifying row left out by `LIMIT` never comes before a returned row. |
| Search.FilterClausesMeaning | app.py:51-60 | The appended clauses hold exactly when the filter options are met: media only, and non-NULL counters at least each positive threshold. No option active means no clause. |
| Search.FieldLike | app.py:77-81 | One `LIKE '%q%'` test. An empty query matches. Without U+0000 in the field or the query, it is an ASCII-case-insensitive substring test. Any match is an occurrence of the query's part before U+0000 in the field's part before U+0000, since SQLite reads both as C strings. |
| Search.FieldLikeIgnoresTail | app.py:81 | Whatever follows the first U+0000 of a field never affects a match. |
| Search.NulQueryMatchesSuffix | app.py:77-81 | A query holding U+0000 loses its closing `%`, so it matches a field that merely ends with the query's part before U+0000. |
| Search.NulHidesFieldTail | app.py:81 | A field `"a\0b"` does not match the query `b`. |
| Search.NulQueryAsksSuffix | app.py:77-81 | The query `"zz\0q"` matches the field `"xzz"` but not `"xzzy"`. |
| Search.LikeMatches | app.py:77-81 | The fallback's text condition: the query's `LIKE` holds for the text, the handle or the name. An empty query matches every row. Without U+0000 anywhere, this is a case-insensitive substring test on the three columns. |
| Search.EmptyQueryMatchesAll | app.py:77 | With an empty query the substring condition matches every row. |
| Search.VerbatimOccurrenceMatches | app.py:77-81 | A query without U+0000 that occurs verbatim before the first U+0000 of the text, handle or name matches under ASCII-case-insensitive `LIKE`. |
| Search.NewerOrSame | app.py:82 | `ORDER BY created_at_utc DESC`. Two dated rows are ordered by reversed binary text order. A dated row comes before an undated one and never after it, and undated rows are tied. |
| Search.NewerOrSamePreorder | app.py:82 | `created_at_utc DESC` with NULLs last is a total preorder. |
| Search.Query | app.py:61 | The searched text has no surrounding whitespace and is `(q or "")` with a blank prefix and suffix removed. |
| Search.ConditionMeaning | app.py:64-81 | The condition Search runs, either `MATCH` or the three `LIKE`s, plus the clauses, holds exactly when the row is selected: the text condition of the mode holds and every active filter holds. |
| Search.Search | app.py:47-86 | Search raises `OverflowError` exactly when the limit, or a positive threshold, does not fit a 64-bit integer. Otherwise it fails exactly when the stripped query is non-empty and the index exists and rejects the query. On success the mode is `fts` exactly when the query is non-empty and the index exists. |
| Search.SearchRows | app.py:47-86 | In both modes, every returned row is a table row meeting its mode's text condition and every active filter. At most `limit` rows are returned when `limit >= 0`, and every qualifying row when fewer are returned. |
| Search.SearchOrder | app.py:64-82 | Substring results come newest first, with undated rows after dated ones. Full-text results come in non-decreasing `bm25` rank. |
| Search.SearchTopRows | app.py:64-86 | No qualifying row left out by the limit is newer (fallback) or better ranked (full text) than a returned row. |
| Search.BlankQueryListsFiltered | app.py:61-86 | A blank or missing query fails only on an overflowing parameter and then uses the fallback. It returns only rows passing the filters, and every such row when the limit is negative. |
| Search.FetchMedia | app.py:88-92 | Returns exactly the rows whose `tweet_id` is the given id, each at most once, in strictly increasing `idx`. |
| I18n.T | app.py:159-161 | A known language's entry is used. An unknown language reads English. A key in no table comes back unchanged, and every result is the key or a table entry. |

## Left out

- SQLite plumbing is not modelled. This covers the schema DDL, `ensure_fts5`, the FTS5 table and its triggers, the WAL pragmas, commits and rollback. Tables are maps, and the full-text index is assumed to mirror the tweets' text columns, as the insert trigger keeps it.
- `parse_dt` is the `parseDt` parameter, because `datetime.fromisoformat` and timezone conversion are outside the model. `fmt_dt` is display only.
- File I/O is not modelled: `json.load` and its decode errors, `Path.stat`, `Path.exists` and `collect_json_files`. Directory contents, file stats and the clock reading are inputs.
- The driver `main` of the indexer (argparse, the file loop, rebuild mode) and the viewer's `main` and `render_tweet` are CLI and UI glue. The `has_fts` probe is the presence of the `fts` argument.
- JSON floats, lists and objects are not modelled as ids or counters. Scalars are null, booleans, integers and strings, so `int()` of a float or `str()` of a list is out of scope.
- A text field holding a truthy non-string JSON value is not modelled: the model's text fields are strings or absent. The source stores a number or a boolean as that value, and raises when binding a non-empty list or object, which `sqlite3` does not bind. With a media directory, a truthy non-string `profile_image_url` or attachment URL raises earlier, because `urlparse` cannot decode it (build_index.py:195, 230).
- PyInt.ParseInt: accepts ASCII digits only, while Python's `int()` also accepts other Unicode decimal digits.
- Text.Lower: folds ASCII letters only, while Python's `str.lower()` applied to the `format` value folds all of Unicode. SQLite's `LIKE` also folds ASCII only, so Lower is exact where Search.FieldLike uses it.
- Urls.Split: does not raise for a malformed bracketed IPv6 netloc, or for a non-ASCII netloc whose NFKC normalisation adds one of `/?#@:`, where `urlsplit` raises `ValueError` and aborts the file.
- Urls.PlusToSpace: `parse_qs` also percent-decodes names and values. The model decodes only `+`.
- Urls.FirstFormat: compares the undecoded name with `format`, so a percent-encoded name such as `form%61t` is not recognised, while `parse_qs` would decode it.
- Search.FieldLike: `%` and `_` inside the query act as wildcards in SQLite's `LIKE`. The model treats the query as a plain substring.
- Search.Search: SQLite raises "LIKE or GLOB pattern too complex" when the fallback's pattern `%query%` exceeds 50000 bytes. The model runs the fallback for any query length. A blank query's pattern is `%`, so Search.BlankQueryListsFiltered is not affected.
- The FTS5 query language, its tokenizer and `bm25` are an abstract acceptance test, match relation and score. Ties in `ORDER BY` are left in whatever order the sort produces, since SQLite leaves them unspecified.
- Ingest.ImportSucceeds: proves success for well-shaped records, but `import_one_json` can still raise on them in four cases the model does not cover.
  - `parse_dt` raises `OverflowError` outside its `try` when the UTC conversion leaves the datetime range, as for `0001-01-01T00:00:00+01:00`.
  - `urlsplit` raises `ValueError` for the netlocs named under Urls.Split.
  - `Path.exists()` re-raises an `OSError` other than "not found", such as `ENAMETOOLONG` for a candidate name over 255 bytes (build_index.py:51). The model treats the directory as a set of names.
  - A string holding a lone surrogate such as `"\ud83d"` is accepted by `json.load`, but `sqlite3` cannot encode it when binding (build_index.py:174, 198-216). A Dafny `char` cannot hold a surrogate, so the model has no such string.
- Ingest.ImportFailureLocated: covers only the errors the model raises, so the four failures named under Ingest.ImportSucceeds are not among them.
- Ingest.RecordId: `str()` raises for an integer of more than 4300 digits, and the model renders any integer. `json.load` already rejects such a number, so no record can hold one.
- ImportTracker.ShouldSkip: mtimes are exact reals, not IEEE doubles, so rounding in `abs(a - b) < 1e-6` is not modelled.
- Concurrent writers are not modelled. The race in which another process inserts the same id between the `SELECT` and the `INSERT` does not arise in a sequential model.

=== FILE: i18n.dfy ===
/** The viewer's interface strings in English and Chinese, and the lookup with fallbacks. */
module I18n {

  const En: map<string, string> := map[
    "page_title" := "Twitter Bookmark Search",
    "title" := "Twitter Bookmark Search",
    "lang_label" := "Language / 语言",
    "sidebar_search" := "Search",
    "keyword" := "Keyword",
    "max_results" := "Max results",
    "only_media" := "Only tweets with media",
    "min_bookmarks" := "Min bookmarks",
    "min_likes" := "Min likes",
    "status" := "Status",
    "db" := "DB",
    "fts" := "FTS5",
    "fts_enabled" := "enabled",
    "fts_fallback" := "fallback to LIKE",
    "media_dir" := "Media dir",
    "media_dir_not_set" := "not set",
    "db_not_found_title" := "Database not found",
    "db_not_found_help" := "Run build_index.py first.",
    "hits" := "Hits",
    "mode" := "Mode",
    "open_tweet" := "Open tweet",
    "media" := "Media",
    "open_remote_media" := "Open remote media",
    "bookmarks" := "bookmarks",
    "likes" := "likes",
    "retweets" := "retweets",
    "local_file" := "Local file"
  ]

  const Zh: map<string, string> := map[
    "page_title" := "推特书签检索",
    "title" := "推特书签检索",
    "lang_label" := "Language / 语言",
    "sidebar_search" := "检索设置",
    "keyword" := "关键词 / 查询",
    "max_results" := "最多返回条数",
    "only_media" := "只看带媒体的推文",
    "min_bookmarks" := "最少收藏数",
    "min_likes" := "最少喜欢数",
    "status" := "索引状态",
    "db" := "数据库",
    "fts" := "FTS5",
    "fts_enabled" := "已启用",
    "fts_fallback" := "不可用，回退到 LIKE",
    "media_dir" := "媒体目录",
    "media_dir_not_set" := "未设置",
    "db_not_found_title" := "未找到数据库",
    "db_not_found_help" := "请先运行 build_index.py 导入数据。",
    "hits" := "命中",
    "mode" := "模式",
    "open_tweet" := "打开原推文",
    "media" := "媒体",
    "open_remote_media" := "打开远端媒体",
    "bookmarks" := "收藏",
    "likes" := "喜欢",
    "retweets" := "转推",
    "local_file" := "本地文件"
  ]

  /** The string tables by language code. */
  const Catalog: map<string, map<string, string>> := map["en" := En, "zh" := Zh]

  /** Both tables translate the same keys. */
  lemma TablesAgree()
    ensures Zh.Keys == En.Keys
  {
  }

  /**
   * `t(lang, key)`: the entry for `key` in the language's table, an unknown language read as
   * English; a key missing from that table falls back to English, then to the key itself.
   */
  function T(lang: string, key: string): (s: string)
    ensures lang in Catalog && key in Catalog[lang] ==> s == Catalog[lang][key]
    ensures lang !in Catalog && key in En ==> s == En[key]
    ensures key !in En ==> s == key
    ensures s == key || s in En.Values || s in Zh.Values
  {
    TablesAgree();
    var l := if lang in Catalog then lang else "en";
    if key in Catalog[l] then Catalog[l][key]
    else if key in En then En[key]
    else key
  }
}

=== FILE: import_tracker.dfy ===
/**
 * The per-file fingerprint cache: `should_skip_file` decides whether an unchanged source
 * file can be skipped, and `mark_file_imported` records a file's fingerprint after import.
 * Sizes are integers and modification times reals; the clock reading is a parameter.
 */
module ImportTracker {
  import opened Store

  /** The size and modification time `Path.stat()` reports for a source file. */
  datatype FileStat = FileStat(size: int, mtime: real)

  /** Two modification times closer than this are the same time. */
  const MtimeTolerance: real := 0.000001

  function Abs(x: real): real {
    if x < 0.0 then -x else x
  }

  /** The recorded fingerprint matches the file's current one. */
  predicate SameFingerprint(rec: ImportRecord, st: FileStat) {
    rec.fileSize == st.size && Abs(rec.fileMtime - st.mtime) < MtimeTolerance
  }

  /**
   * `should_skip_file`: a file never imported is processed; an imported one is skipped exactly when
   * its size is unchanged and its modification time moved by less than the tolerance.
   */
  function ShouldSkip(imports: map<string, ImportRecord>, path: string, st: FileStat): (skip: bool)
    ensures path !in imports ==> !skip
    ensures skip ==> imports[path].fileSize == st.size
    ensures skip ==> -MtimeTolerance < imports[path].fileMtime - st.mtime < MtimeTolerance
    ensures (path in imports && imports[path].fileSize == st.size
             && -MtimeTolerance < imports[path].fileMtime - st.mtime < MtimeTolerance) ==> skip
  {
    path in imports && SameFingerprint(imports[path], st)
  }

  /** `mark_file_imported`: insert-or-replace the record of `path`, leaving every other path's record alone. */
  function MarkImported(imports: map<string, ImportRecord>, path: string, st: FileStat, now: string)
    : (r: map<string, ImportRecord>)
    ensures r.Keys == imports.Keys + {path}
    ensures r[path] == ImportRecord(st.size, st.mtime, now)
    ensures forall p :: p in imports && p != path ==> r[p] == imports[p]
  {
    imports[path := ImportRecord(st.size, st.mtime, now)]
  }

  /** A file just marked as imported is skipped next time if it has not changed. */
  lemma MarkThenSkip(imports: map<string, ImportRecord>, path: string, st: FileStat, now: string)
    ensures ShouldSkip(MarkImported(imports, path, st, now), path, st)
  {
  }

  /** Marking one file does not change the skip decision for any other file. */
  lemma MarkKeepsOtherDecisions(imports: map<string, ImportRecord>, path: string, st: FileStat, now: string,
                                other: string, st': FileStat)
    requires other != path
    ensures ShouldSkip(MarkImported(imports, path, st, now), other, st') == ShouldSkip(imports, other, st')
  {
  }

  /** A size change, or a modification-time change of at least the tolerance, forces re-import. */
  lemma ChangedFileNotSkipped(imports: map<string, ImportRecord>, path: string, st: FileStat)
    requires path in imports
    requires imports[path].fileSize != st.size || Abs(imports[path].fileMtime - st.mtime) >= MtimeTolerance
    ensures !ShouldSkip(imports, path, st)
  {
  }
}

=== FILE: ingest.dfy ===
/**
 * `import_one_json`: one source file's records folded into the store. Records with a blank id or
 * an id already stored (earlier in this file or in an earlier import) are skipped; every other
 * record becomes a tweet row plus one media row per attachment position. A file whose JSON root
 * is not a list, or whose records are not objects, raises, and nothing of it is kept.
 */
module Ingest {
  import opened Wrappers
  import opened Text
  import opened PyInt
  import opened Store
  import opened MediaResolver

  /** A JSON scalar as `json.load` returns it (JSON floats are not modelled). */
  datatype Scalar = Null | Bool(b: bool) | Int(i: int) | Str(s: string)

  /** Python's `str(v)`. */
  function PyStr(v: Scalar): (r: string)
    ensures v.Null? ==> r == "None"
    ensures v.Bool? ==> r == (if v.b then "True" else "False")
    ensures v.Int? ==> r == IntToDecimal(v.i) && (r[0] == '-' <==> v.i < 0)
    ensures v.Str? ==> r == v.s
  {
    match v
    case Null => "None"
    case Bool(b) => if b then "True" else "False"
    case Int(i) => IntToDecimal(i)
    case Str(s) => s
  }

  /** `get_int(tw.get(key))`: Python's `int()` of the value, NULL when the key is absent or `int()` raises. */
  function GetInt(v: Option<Scalar>): (r: Option<int>)
    ensures v.None? || v.value.Null? ==> r.None?
    ensures v.Some? && v.value.Int? ==> r == Some(v.value.i)
    ensures v.Some? && v.value.Bool? ==> r == Some(if v.value.b then 1 else 0)
    ensures v.Some? && v.value.Str? && AllSpace(v.value.s) ==> r.None?
    ensures v.Some? && v.value.Str? ==> r == ParseInt(v.value.s)
  {
    match v
    case None => None
    case Some(Null) => None
    case Some(Bool(b)) => Some(if b then 1 else 0)
    case Some(Int(i)) => Some(i)
    case Some(Str(s)) => ParseInt(s)
  }

  /**
   * A counter exported as the decimal text of an integer reads back as that integer; text of more
   * than `MaxStrDigits` digits makes `int()` raise, which reads as NULL.
   */
  lemma GetIntOfRenderedInt(i: int)
    ensures GetInt(Some(Str(PyStr(Int(i))))) == if DigitCount(i) <= MaxStrDigits then Some(i) else None
  {
    DecimalRoundTrip(i);
  }

  /** One element of a record's `media` list; `m.get(...)` raises on anything but an object. */
  datatype MediaEntry =
    | MediaObject(kind: Option<string>, url: Option<string>, thumbnail: Option<string>, original: Option<string>)
    | MediaNotObject

  /**
   * A record's `media` value after `or []`: a list (an absent, null or otherwise falsy value reads
   * as the empty list), or some other truthy value, which cannot be iterated as media objects.
   */
  datatype MediaField = MediaItems(items: seq<MediaEntry>) | MediaNotList

  /**
   * One source record. A text field is `None` when the key is absent or null; `id`, the counters
   * and `in_reply_to` keep the JSON scalar because the ingester converts them with `str()` or `int()`.
   */
  datatype SourceRecord = SourceRecord(
    id: Option<Scalar>,
    createdAt: Option<string>,
    fullText: Option<string>,
    screenName: Option<string>,
    name: Option<string>,
    profileImageUrl: Option<string>,
    url: Option<string>,
    favoriteCount: Option<Scalar>,
    retweetCount: Option<Scalar>,
    bookmarkCount: Option<Scalar>,
    quoteCount: Option<Scalar>,
    replyCount: Option<Scalar>,
    viewsCount: Option<Scalar>,
    inReplyTo: Option<Scalar>,
    media: MediaField)

  /** An element of the root list: an object, or anything else (on which `tw.get` raises). */
  datatype Entry = Object(rec: SourceRecord) | NotObject

  /** The top-level JSON value of a source file. */
  datatype Root = List(entries: seq<Entry>) | NotList

  datatype ImportError =
    | RootNotList
    | EntryNotObject(position: nat)
    | CounterOverflow(position: nat)
    | MediaNotIterable(position: nat)
    | MediaEntryNotObject(position: nat, index: nat)

  /** The counts `import_one_json` returns, with the store it leaves behind. */
  datatype Imported = Imported(store: Store, inserted: nat, total: nat)

  /** `tw.get(key) or ""`. */
  function OrEmpty(v: Option<string>): string {
    v.GetOr("")
  }

  /** `str(tw.get("id", "")).strip()`. */
  function RecordId(rec: SourceRecord): (r: string)
    ensures r == [] || (!IsSpace(r[0]) && !IsSpace(r[|r| - 1]))
    ensures rec.id.None? ==> r == ""
    ensures rec.id == Some(Null) ==> r == "None"
    ensures rec.id.Some? && rec.id.value.Int? ==> r == IntToDecimal(rec.id.value.i)
    ensures rec.id.Some? && rec.id.value.Bool? ==> r == (if rec.id.value.b then "True" else "False")
    ensures rec.id.Some? && rec.id.value.Str? ==> r == Strip(rec.id.value.s)
  {
    var v := rec.id.GetOr(Str(""));
    if !v.Str? then
      RenderedUnstripped(v);
      Strip(PyStr(v))
    else
      Strip(PyStr(v))
  }

  /** `str()` of an integer, a boolean or `None` has no surrounding whitespace. */
  lemma RenderedUnstripped(v: Scalar)
    requires !v.Str?
    ensures Strip(PyStr(v)) == PyStr(v)
  {
    var s := PyStr(v);
    if v.Int? {
      var d := NatToDecimal(if v.i < 0 then -v.i else v.i);
      assert IsDigit(d[0]) && IsDigit(d[|d| - 1]);
      assert s == if v.i < 0 then "-" + d else d;
    }
    StripNoSpaceEnds(s);
  }

  /** The id an element would be stored under when ids are read by `key`; a non-object has none. */
  function EntryId(e: Entry, key: SourceRecord -> string): string {
    if e.Object? then key(e.rec) else ""
  }

  /** The list `enumerate(media_list)` walks; empty for the failing non-list case. */
  function MediaOf(rec: SourceRecord): seq<MediaEntry> {
    if rec.media.MediaItems? then rec.media.items else []
  }

  /** `has_media = 1 if media_list else 0`. */
  predicate HasMedia(rec: SourceRecord)
    ensures rec.media.MediaItems? ==> (HasMedia(rec) <==> MediaOf(rec) != [])
  {
    rec.media.MediaNotList? || |rec.media.items| > 0
  }

  /**
   * The conversions the record loop applies to a record: how its id is read, how a timestamp is
   * normalised (`parse_dt`), and how avatar and attachment URLs are resolved to local files. The
   * loop's properties hold whatever they are; `import_one_json` uses `SourceRules`.
   */
  datatype Rules = Rules(
    key: SourceRecord -> string,
    parseDt: string -> string,
    avatarFile: string -> Option<string>,
    mediaFile: (string, string, string) -> Option<string>)

  /** The conversions of `import_one_json` for media directory `mediaDir`. */
  function SourceRules(mediaDir: Option<set<string>>, parseDt: string -> string): Rules {
    Rules(RecordId, parseDt, u => ResolveAvatar(mediaDir, u), (o, t, u) => ResolveMediaFile(mediaDir, o, t, u))
  }

  /** The tweet row inserted for a record with fresh id `tid`. */
  function MakeTweet(tid: string, rec: SourceRecord, rules: Rules)
    : (t: Tweet)
    ensures t.id == tid
    ensures t.hasMedia <==> HasMedia(rec)
    ensures t.createdAtUtc.None? <==> t.createdAtRaw == ""
    ensures t.inReplyTo.None? <==> rec.inReplyTo.None? || rec.inReplyTo.value.Null?
    ensures t.inReplyTo.Some? ==> t.inReplyTo.value == PyStr(rec.inReplyTo.value)
    ensures t.createdAtRaw == OrEmpty(rec.createdAt) && t.fullText == OrEmpty(rec.fullText)
    ensures t.screenName == OrEmpty(rec.screenName) && t.name == OrEmpty(rec.name)
    ensures t.profileImageUrl == OrEmpty(rec.profileImageUrl) && t.tweetUrl == OrEmpty(rec.url)
    ensures t.createdAtRaw != "" ==> t.createdAtUtc == Some(rules.parseDt(t.createdAtRaw))
    ensures t.profileImageFile == rules.avatarFile(t.profileImageUrl)
    ensures [t.favoriteCount, t.retweetCount, t.bookmarkCount, t.quoteCount, t.replyCount, t.viewsCount] == Counters(rec)
  {
    var raw := OrEmpty(rec.createdAt);
    var avatarUrl := OrEmpty(rec.profileImageUrl);
    Tweet(
      id := tid,
      createdAtUtc := if raw != "" then Some(rules.parseDt(raw)) else None,
      createdAtRaw := raw,
      fullText := OrEmpty(rec.fullText),
      screenName := OrEmpty(rec.screenName),
      name := OrEmpty(rec.name),
      profileImageUrl := avatarUrl,
      profileImageFile := rules.avatarFile(avatarUrl),
      tweetUrl := OrEmpty(rec.url),
      favoriteCount := GetInt(rec.favoriteCount),
      retweetCount := GetInt(rec.retweetCount),
      bookmarkCount := GetInt(rec.bookmarkCount),
      quoteCount := GetInt(rec.quoteCount),
      replyCount := GetInt(rec.replyCount),
      viewsCount := GetInt(rec.viewsCount),
      inReplyTo := if rec.inReplyTo.None? || rec.inReplyTo.value.Null? then None else Some(PyStr(rec.inReplyTo.value)),
      hasMedia := HasMedia(rec))
  }

  /** The media row written for attachment `i` of tweet `tid`. */
  function MakeMediaRow(tid: string, i: nat, m: MediaEntry, rules: Rules): (row: MediaRow)
    requires m.MediaObject?
    ensures row.tweetId == tid && row.idx == i && row.kind == OrEmpty(m.kind)
    ensures row.url == OrEmpty(m.url) && row.thumbnailUrl == OrEmpty(m.thumbnail) && row.originalUrl == OrEmpty(m.original)
    ensures row.localFile == rules.mediaFile(row.originalUrl, row.thumbnailUrl, row.url)
  {
    var url, thumb, orig := OrEmpty(m.url), OrEmpty(m.thumbnail), OrEmpty(m.original);
    MediaRow(tid, i, OrEmpty(m.kind), url, thumb, orig, rules.mediaFile(orig, thumb, url))
  }

  /**
   * Under the conversions of `import_one_json`, an attachment's local file is that of its original
   * URL if that resolves, else of its thumbnail URL, else of its primary URL; there is none
   * without a media directory.
   */
  lemma MediaRowLocalFile(tid: string, i: nat, m: MediaEntry, mediaDir: Option<set<string>>, parseDt: string -> string)
    requires m.MediaObject?
    ensures var row := MakeMediaRow(tid, i, m, SourceRules(mediaDir, parseDt));
      && (mediaDir.None? ==> row.localFile.None?)
      && (mediaDir.Some? ==>
            var dir := mediaDir.value;
            var o, t, u := ResolveUrl(dir, row.originalUrl), ResolveUrl(dir, row.thumbnailUrl), ResolveUrl(dir, row.url);
            row.localFile == if o.Some? then o else if t.Some? then t else u)
  {
    if mediaDir.Some? {
      var row := MakeMediaRow(tid, i, m, SourceRules(mediaDir, parseDt));
      var dir := mediaDir.value;
      RolesPriority(u => ResolveUrl(dir, u), row.originalUrl, row.thumbnailUrl, row.url);
    }
  }

  /**
   * Under the conversions of `import_one_json`, a tweet's avatar file is the first candidate of its
   * profile image URL found in the media directory; there is none without a media directory or
   * without a URL.
   */
  lemma TweetAvatarFile(tid: string, rec: SourceRecord, mediaDir: Option<set<string>>, parseDt: string -> string)
    ensures var t := MakeTweet(tid, rec, SourceRules(mediaDir, parseDt));
      && (mediaDir.None? || OrEmpty(rec.profileImageUrl) == "" ==> t.profileImageFile.None?)
      && (mediaDir.Some? && OrEmpty(rec.profileImageUrl) != "" ==>
            t.profileImageFile == ResolveUrl(mediaDir.value, OrEmpty(rec.profileImageUrl)))
  {
  }

  /** `key` is one of `(tid, 0)`, ..., `(tid, n - 1)`. */
  predicate InPositions(key: (string, int), tid: string, n: int) {
    key.0 == tid && 0 <= key.1 < n
  }

  /**
   * The `INSERT OR REPLACE INTO media` loop for one tweet: attachment `i` is written under
   * `(tid, i)`, replacing any row already there; a non-object attachment raises.
   */
  function UpsertMedia(media: map<(string, int), MediaRow>, tid: string, items: seq<MediaEntry>,
                       rules: Rules, pos: nat)
    : (r: Result<map<(string, int), MediaRow>, ImportError>)
    ensures r.Success? ==> media.Keys <= r.value.Keys
    ensures r.Failure? ==> r.error.MediaEntryNotObject? && r.error.position == pos
  {
    if items == [] then
      Success(media)
    else
      var n := |items| - 1;
      var prev := UpsertMedia(media, tid, items[..n], rules, pos);
      if prev.Failure? then
        Failure(prev.error)
      else if items[n].MediaNotObject? then
        Failure(MediaEntryNotObject(pos, n))
      else
        Success(prev.value[(tid, n) := MakeMediaRow(tid, n, items[n], rules)])
  }

  /** The media loop fails exactly when some attachment is not an object. */
  lemma {:induction false} UpsertMediaSucceeds(media: map<(string, int), MediaRow>, tid: string, items: seq<MediaEntry>,
                                               rules: Rules, pos: nat)
    ensures UpsertMedia(media, tid, items, rules, pos).Success? <==> forall k :: 0 <= k < |items| ==> items[k].MediaObject?
  {
    if items != [] {
      var n := |items| - 1;
      UpsertMediaSucceeds(media, tid, items[..n], rules, pos);
      assert forall k :: 0 <= k < n ==> items[..n][k] == items[k];
    }
  }

  /** Attachment `k` of `items` is an object and is stored under `(tid, k)` as built from it. */
  predicate MediaStored(media: map<(string, int), MediaRow>, tid: string, items: seq<MediaEntry>, rules: Rules) {
    forall k :: 0 <= k < |items| ==>
      items[k].MediaObject? && (tid, k) in media && media[(tid, k)] == MakeMediaRow(tid, k, items[k], rules)
  }

  /**
   * After the media loop, attachment `k` is stored under `(tid, k)` as built from the attachment;
   * every other key keeps its row, and no key is added besides these positions.
   */
  lemma {:induction false} UpsertMediaEffect(media: map<(string, int), MediaRow>, tid: string, items: seq<MediaEntry>,
                                             rules: Rules, pos: nat)
    requires UpsertMedia(media, tid, items, rules, pos).Success?
    ensures var out := UpsertMedia(media, tid, items, rules, pos).value;
      && (forall key :: key in out <==> key in media || InPositions(key, tid, |items|))
      && MediaStored(out, tid, items, rules)
      && (forall key :: key in media && !InPositions(key, tid, |items|) ==> out[key] == media[key])
  {
    if items != [] {
      var n := |items| - 1;
      UpsertMediaEffect(media, tid, items[..n], rules, pos);
      var prev := UpsertMedia(media, tid, items[..n], rules, pos).value;
      MediaStoredSnoc(prev, tid, items, rules);
    }
  }

  lemma MediaStoredSnoc(prev: map<(string, int), MediaRow>, tid: string, items: seq<MediaEntry>, rules: Rules)
    requires |items| > 0 && items[|items| - 1].MediaObject?
    requires MediaStored(prev, tid, items[..|items| - 1], rules)
    ensures var n := |items| - 1;
      MediaStored(prev[(tid, n) := MakeMediaRow(tid, n, items[n], rules)], tid, items, rules)
  {
    var n := |items| - 1;
    assert forall k :: 0 <= k < n ==> items[..n][k] == items[k];
  }

  /** The six counters of a record, as `get_int` reads them, in the column order of the INSERT. */
  function Counters(rec: SourceRecord): seq<Option<int>> {
    [GetInt(rec.favoriteCount), GetInt(rec.retweetCount), GetInt(rec.bookmarkCount),
     GetInt(rec.quoteCount), GetInt(rec.replyCount), GetInt(rec.viewsCount)]
  }

  /** Every counter is NULL or fits SQLite's integers, so the tweet INSERT can bind it. */
  predicate CountersFit(rec: SourceRecord) {
    forall k :: 0 <= k < |Counters(rec)| ==> Counters(rec)[k].None? || IsInt64(Counters(rec)[k].value)
  }

  /** The element is an object whose id is non-blank and not yet stored: it will be inserted. */
  predicate Fresh(st: Store, e: Entry, key: SourceRecord -> string) {
    e.Object? && key(e.rec) != "" && key(e.rec) !in st.tweets
  }

  /** One iteration of the record loop of `import_one_json`. */
  function ImportEntry(st: Store, e: Entry, pos: nat, rules: Rules): (r: Result<Store, ImportError>)
    ensures e.NotObject? ==> r == Failure(EntryNotObject(pos))
    ensures r.Success? ==> st.tweets.Keys <= r.value.tweets.Keys && st.media.Keys <= r.value.media.Keys && r.value.imports == st.imports
    ensures r.Failure? ==> !r.error.RootNotList? && r.error.position == pos
  {
    match e
    case NotObject => Failure(EntryNotObject(pos))
    case Object(rec) =>
      var tid := rules.key(rec);
      if tid == "" || tid in st.tweets then
        Success(st)
      else if !CountersFit(rec) then
        Failure(CounterOverflow(pos))
      else if rec.media.MediaNotList? then
        Failure(MediaNotIterable(pos))
      else
        var media :- UpsertMedia(st.media, tid, rec.media.items, rules, pos);
        Success(Store(st.tweets[tid := MakeTweet(tid, rec, rules)], media, st.imports))
  }

  /**
   * One record: a non-object raises; a blank or already stored id leaves the store as it is; a
   * fresh id whose counters do not fit raises at the tweet INSERT; otherwise the tweet row is
   * added and the media loop runs, which raises when the media value is not a list.
   */
  lemma ImportEntryEffect(st: Store, e: Entry, pos: nat, rules: Rules)
    ensures var r := ImportEntry(st, e, pos, rules);
      && (e.NotObject? ==> r == Failure(EntryNotObject(pos)))
      && (e.Object? && !Fresh(st, e, rules.key) ==> r == Success(st))
      && (Fresh(st, e, rules.key) && !CountersFit(e.rec) ==> r == Failure(CounterOverflow(pos)))
      && (Fresh(st, e, rules.key) && CountersFit(e.rec) && e.rec.media.MediaNotList? ==> r == Failure(MediaNotIterable(pos)))
      && (Fresh(st, e, rules.key) && CountersFit(e.rec) && e.rec.media.MediaItems? ==>
            var m := UpsertMedia(st.media, rules.key(e.rec), e.rec.media.items, rules, pos);
            && (r.Success? <==> m.Success?)
            && (r.Success? ==>
                  r.value == Store(st.tweets[rules.key(e.rec) := MakeTweet(rules.key(e.rec), e.rec, rules)], m.value, st.imports)))
  {
  }

  /** The record loop of `import_one_json` over `entries`, from the first element to the last. */
  function ImportEntries(st: Store, entries: seq<Entry>, rules: Rules): (r: Result<Imported, ImportError>)
    ensures r.Success? ==> st.tweets.Keys <= r.value.store.tweets.Keys && st.media.Keys <= r.value.store.media.Keys
    ensures r.Failure? ==> !r.error.RootNotList? && r.error.position < |entries|
  {
    if entries == [] then
      Success(Imported(st, 0, 0))
    else
      var n := |entries| - 1;
      var prev :- ImportEntries(st, entries[..n], rules);
      var next :- ImportEntry(prev.store, entries[n], n, rules);
      Success(Imported(next, prev.inserted + (if Fresh(prev.store, entries[n], rules.key) then 1 else 0), prev.total + 1))
  }

  /** One step of the record loop: the loop over a longer list extends the loop over its prefix. */
  lemma ImportEntriesStep(st: Store, entries: seq<Entry>, rules: Rules)
    requires |entries| > 0
    ensures var n := |entries| - 1;
      var prev := ImportEntries(st, entries[..n], rules);
      var r := ImportEntries(st, entries, rules);
      && (prev.Failure? ==> r == Failure(prev.error))
      && (prev.Success? ==>
            var next := ImportEntry(prev.value.store, entries[n], n, rules);
            && (next.Failure? ==> r == Failure(next.error))
            && (next.Success? ==>
                  r == Success(Imported(next.value, prev.value.inserted + (if Fresh(prev.value.store, entries[n], rules.key) then 1 else 0),
                                        prev.value.total + 1))))
  {
    var n := |entries| - 1;
    var prev := ImportEntries(st, entries[..n], rules);
    var r := ImportEntries(st, entries, rules);
    if prev.Failure? {
      assert r == Failure(prev.error);
    } else {
      var next := ImportEntry(prev.value.store, entries[n], n, rules);
      if next.Failure? {
        assert r == Failure(next.error);
      } else {
        var inserted := prev.value.inserted + (if Fresh(prev.value.store, entries[n], rules.key) then 1 else 0);
        assert r == Success(Imported(next.value, inserted, prev.value.total + 1));
      }
    }
  }

  /** A successful loop has seen every element, inserted at most that many, and left `imports` alone. */
  lemma {:induction false} ImportTotals(st: Store, entries: seq<Entry>, rules: Rules)
    requires ImportEntries(st, entries, rules).Success?
    ensures var r := ImportEntries(st, entries, rules).value;
      r.total == |entries| && r.inserted <= r.total && r.store.imports == st.imports
  {
    if entries != [] {
      var n := |entries| - 1;
      ImportEntriesStep(st, entries, rules);
      ImportTotals(st, entries[..n], rules);
      ImportEntryEffect(ImportEntries(st, entries[..n], rules).value.store, entries[n], n, rules);
    }
  }

  /**
   * `import_one_json`: a root that is not a list is rejected; otherwise the records are folded
   * into the store and the counts of inserted and seen records are returned.
   */
  function ImportOne(st: Store, root: Root, mediaDir: Option<set<string>>, parseDt: string -> string)
    : (r: Result<Imported, ImportError>)
    ensures root.NotList? ==> r == Failure(RootNotList)
    ensures root.List? && r.Success? ==> r.value.total == |root.entries| && r.value.inserted <= r.value.total
    ensures r.Success? ==> r.value.store.imports == st.imports
  {
    match root
    case NotList => Failure(RootNotList)
    case List(entries) =>
      var r := ImportEntries(st, entries, SourceRules(mediaDir, parseDt));
      if r.Success? then
        ImportTotals(st, entries, SourceRules(mediaDir, parseDt));
        r
      else
        r
  }

  /** The ids of the elements, in file order (`""` for blank ids and non-objects). */
  function IdSeq(entries: seq<Entry>, key: SourceRecord -> string): (ids: seq<string>)
    ensures |ids| == |entries|
    ensures forall k :: 0 <= k < |entries| ==> ids[k] == EntryId(entries[k], key)
  {
    seq(|entries|, k requires 0 <= k < |entries| => EntryId(entries[k], key))
  }

  /** The non-blank ids occurring in the file. */
  function IdsIn(entries: seq<Entry>, key: SourceRecord -> string): set<string> {
    set id | id in IdSeq(entries, key) && id != ""
  }

  /** The record that introduces `id`: the first element carrying that id. */
  function FirstRecord(entries: seq<Entry>, key: SourceRecord -> string, id: string): (rec: SourceRecord)
    requires id in IdsIn(entries, key)
    ensures exists k :: 0 <= k < |entries| && entries[k] == Object(rec) && key(rec) == id
  {
    var k := Seqs.FirstIndex(IdSeq(entries, key), id);
    entries[k].rec
  }

  lemma IdSeqPrefix(entries: seq<Entry>, key: SourceRecord -> string, n: nat)
    requires n <= |entries|
    ensures IdSeq(entries[..n], key) == IdSeq(entries, key)[..n]
  {
  }

  /** Appending elements does not change which record introduces an id already present. */
  lemma FirstRecordPrefix(entries: seq<Entry>, key: SourceRecord -> string, n: nat, id: string)
    requires n <= |entries| && id in IdsIn(entries[..n], key)
    ensures id in IdsIn(entries, key)
    ensures FirstRecord(entries, key, id) == FirstRecord(entries[..n], key, id)
  {
    IdSeqPrefix(entries, key, n);
    Seqs.FirstIndexPrefix(IdSeq(entries, key), id, n);
  }

  /** The last element introduces its id when that id did not occur before it. */
  lemma FirstRecordLast(entries: seq<Entry>, key: SourceRecord -> string, id: string)
    requires |entries| > 0 && entries[|entries| - 1].Object? && EntryId(entries[|entries| - 1], key) == id != ""
    requires id !in IdsIn(entries[..|entries| - 1], key)
    ensures id in IdsIn(entries, key)
    ensures FirstRecord(entries, key, id) == entries[|entries| - 1].rec
  {
    var n := |entries| - 1;
    IdSeqPrefix(entries, key, n);
    var ids := IdSeq(entries, key);
    assert ids[n] == id;
  }

  lemma IdsInSnoc(entries: seq<Entry>, key: SourceRecord -> string)
    requires |entries| > 0
    ensures var n := |entries| - 1;
      IdsIn(entries, key) == IdsIn(entries[..n], key) + (if EntryId(entries[n], key) != "" then {EntryId(entries[n], key)} else {})
  {
    var n := |entries| - 1;
    IdSeqPrefix(entries, key, n);
    assert IdSeq(entries, key) == IdSeq(entries[..n], key) + [EntryId(entries[n], key)];
  }

  /** A successful import met only objects. */
  lemma {:induction false} ImportAllObjects(st: Store, entries: seq<Entry>, rules: Rules)
    requires ImportEntries(st, entries, rules).Success?
    ensures forall k :: 0 <= k < |entries| ==> entries[k].Object?
  {
    if entries != [] {
      var n := |entries| - 1;
      ImportEntriesStep(st, entries, rules);
      var prev := ImportEntries(st, entries[..n], rules);
      assert prev.Success?;
      ImportAllObjects(st, entries[..n], rules);
      assert ImportEntry(prev.value.store, entries[n], n, rules).Success?;
      forall k | 0 <= k < n ensures entries[k].Object? {
        assert entries[k] == entries[..n][k];
      }
    }
  }

  /** What one record does to the set of stored ids. */
  lemma TweetKeysStep(ps: Store, e: Entry, pos: nat, rules: Rules, out: Store)
    requires ImportEntry(ps, e, pos, rules) == Success(out)
    ensures Fresh(ps, e, rules.key) ==> rules.key(e.rec) !in ps.tweets && out.tweets.Keys == ps.tweets.Keys + {rules.key(e.rec)}
    ensures !Fresh(ps, e, rules.key) ==> out.tweets == ps.tweets
    ensures forall id :: id in ps.tweets ==> out.tweets[id] == ps.tweets[id]
  {
    ImportEntryEffect(ps, e, pos, rules);
  }

  /** The stored ids grow by exactly the file's non-blank ids; stored tweets are never rewritten. */
  lemma {:induction false} ImportTweetKeys(st: Store, entries: seq<Entry>, rules: Rules)
    requires ImportEntries(st, entries, rules).Success?
    ensures var out := ImportEntries(st, entries, rules).value.store;
      && out.tweets.Keys == st.tweets.Keys + IdsIn(entries, rules.key)
      && forall id :: id in st.tweets ==> out.tweets[id] == st.tweets[id]
  {
    if entries == [] {
      assert IdsIn(entries, rules.key) == {};
    } else {
      var n := |entries| - 1;
      ImportEntriesStep(st, entries, rules);
      ImportTweetKeys(st, entries[..n], rules);
      TweetKeysStep(ImportEntries(st, entries[..n], rules).value.store, entries[n], n, rules,
                    ImportEntries(st, entries, rules).value.store);
      IdsInSnoc(entries, rules.key);
    }
  }

  lemma CardinalityStep(before: set<string>, prev: set<string>, next: set<string>, tid: string)
    requires tid !in prev && next == prev + {tid}
    ensures |next - before| == |prev - before| + (if tid in before then 0 else 1)
  {
    if tid !in before {
      assert next - before == (prev - before) + {tid};
    } else {
      assert next - before == prev - before;
    }
  }

  lemma InsertedStep(before: set<string>, ps: Store, e: Entry, pos: nat, rules: Rules, out: Store, count: nat)
    requires before <= ps.tweets.Keys && count == |ps.tweets.Keys - before|
    requires ImportEntry(ps, e, pos, rules) == Success(out)
    ensures count + (if Fresh(ps, e, rules.key) then 1 else 0) == |out.tweets.Keys - before|
  {
    TweetKeysStep(ps, e, pos, rules, out);
    if Fresh(ps, e, rules.key) {
      CardinalityStep(before, ps.tweets.Keys, out.tweets.Keys, rules.key(e.rec));
    }
  }

  /** The inserted count is the number of ids the import added to the store. */
  lemma {:induction false} ImportInsertedCount(st: Store, entries: seq<Entry>, rules: Rules)
    requires ImportEntries(st, entries, rules).Success?
    ensures var r := ImportEntries(st, entries, rules).value;
      r.inserted == |r.store.tweets.Keys - st.tweets.Keys|
  {
    if entries != [] {
      var n := |entries| - 1;
      ImportEntriesStep(st, entries, rules);
      ImportInsertedCount(st, entries[..n], rules);
      ImportTweetKeys(st, entries[..n], rules);
      var prev := ImportEntries(st, entries[..n], rules).value;
      InsertedStep(st.tweets.Keys, prev.store, entries[n], n, rules, ImportEntries(st, entries, rules).value.store, prev.inserted);
    }
  }

  /** `id` is new to the store and occurs in the file: the import introduces it. */
  predicate Introduced(st: Store, entries: seq<Entry>, key: SourceRecord -> string, id: string) {
    id in IdsIn(entries, key) && id !in st.tweets
  }

  /** Each new tweet is built from the first record of the file carrying its id. */
  lemma {:induction false} ImportTweetContent(st: Store, entries: seq<Entry>, rules: Rules)
    requires ImportEntries(st, entries, rules).Success?
    ensures var out := ImportEntries(st, entries, rules).value.store;
      forall id :: Introduced(st, entries, rules.key, id) ==>
        id in out.tweets && out.tweets[id] == MakeTweet(id, FirstRecord(entries, rules.key, id), rules)
  {
    if entries != [] {
      var n := |entries| - 1;
      ImportEntriesStep(st, entries, rules);
      ImportTweetContent(st, entries[..n], rules);
      ImportTweetKeys(st, entries[..n], rules);
      IdsInSnoc(entries, rules.key);
      var ps := ImportEntries(st, entries[..n], rules).value.store;
      var out := ImportEntries(st, entries, rules).value.store;
      var e := entries[n];
      ImportEntryEffect(ps, e, n, rules);
      forall id | Introduced(st, entries, rules.key, id)
        ensures id in out.tweets && out.tweets[id] == MakeTweet(id, FirstRecord(entries, rules.key, id), rules)
      {
        if Fresh(ps, e, rules.key) && id == rules.key(e.rec) {
          FirstRecordLast(entries, rules.key, id);
        } else {
          assert Introduced(st, entries[..n], rules.key, id);
          FirstRecordPrefix(entries, rules.key, n, id);
        }
      }
    }
  }

  /** One record leaves every media row of another tweet as it was. */
  lemma MediaKeptStep(ps: Store, e: Entry, pos: nat, rules: Rules, out: Store)
    requires ImportEntry(ps, e, pos, rules) == Success(out)
    ensures forall mk :: mk in ps.media && !(Fresh(ps, e, rules.key) && mk.0 == rules.key(e.rec)) ==>
      mk in out.media && out.media[mk] == ps.media[mk]
  {
    ImportEntryEffect(ps, e, pos, rules);
    if Fresh(ps, e, rules.key) {
      UpsertMediaEffect(ps.media, rules.key(e.rec), e.rec.media.items, rules, pos);
    }
  }

  /** Ids that are not introduced by a file are not introduced by any prefix of it. */
  lemma IntroducedPrefix(st: Store, entries: seq<Entry>, key: SourceRecord -> string, id: string)
    requires |entries| > 0 && Introduced(st, entries[..|entries| - 1], key, id)
    ensures Introduced(st, entries, key, id)
  {
    IdsInSnoc(entries, key);
  }

  /** Media rows of tweets the import does not introduce are left exactly as they were. */
  lemma {:induction false} ImportMediaKept(st: Store, entries: seq<Entry>, rules: Rules)
    requires ImportEntries(st, entries, rules).Success?
    ensures var out := ImportEntries(st, entries, rules).value.store;
      forall mk :: mk in st.media && !Introduced(st, entries, rules.key, mk.0) ==>
        mk in out.media && out.media[mk] == st.media[mk]
  {
    if entries != [] {
      var n := |entries| - 1;
      ImportEntriesStep(st, entries, rules);
      ImportMediaKept(st, entries[..n], rules);
      ImportTweetKeys(st, entries[..n], rules);
      IdsInSnoc(entries, rules.key);
      var ps := ImportEntries(st, entries[..n], rules).value.store;
      var out := ImportEntries(st, entries, rules).value.store;
      MediaKeptStep(ps, entries[n], n, rules, out);
      forall mk | mk in st.media && !Introduced(st, entries, rules.key, mk.0)
        ensures mk in out.media && out.media[mk] == st.media[mk]
      {
        if Introduced(st, entries[..n], rules.key, mk.0) {
          IntroducedPrefix(st, entries, rules.key, mk.0);
        }
      }
    }
  }

  /** The attachments of the record introducing a tweet are stored under that tweet's keys. */
  lemma {:induction false} ImportMediaRows(st: Store, entries: seq<Entry>, rules: Rules)
    requires ImportEntries(st, entries, rules).Success?
    ensures var out := ImportEntries(st, entries, rules).value.store;
      forall id :: Introduced(st, entries, rules.key, id) ==>
        MediaStored(out.media, id, MediaOf(FirstRecord(entries, rules.key, id)), rules)
  {
    if entries != [] {
      var n := |entries| - 1;
      ImportEntriesStep(st, entries, rules);
      ImportMediaRows(st, entries[..n], rules);
      ImportTweetKeys(st, entries[..n], rules);
      IdsInSnoc(entries, rules.key);
      var ps := ImportEntries(st, entries[..n], rules).value.store;
      var out := ImportEntries(st, entries, rules).value.store;
      var e := entries[n];
      ImportEntryEffect(ps, e, n, rules);
      MediaKeptStep(ps, e, n, rules, out);
      forall id | Introduced(st, entries, rules.key, id)
        ensures MediaStored(out.media, id, MediaOf(FirstRecord(entries, rules.key, id)), rules)
      {
        if Fresh(ps, e, rules.key) && id == rules.key(e.rec) {
          FirstRecordLast(entries, rules.key, id);
          UpsertMediaEffect(ps.media, id, e.rec.media.items, rules, n);
        } else {
          assert Introduced(st, entries[..n], rules.key, id);
          FirstRecordPrefix(entries, rules.key, n, id);
        }
      }
    }
  }

  /** Every media row the import adds belongs to a tweet it introduces, at a position of its record. */
  lemma {:induction false} ImportMediaKeys(st: Store, entries: seq<Entry>, rules: Rules)
    requires ImportEntries(st, entries, rules).Success?
    ensures var out := ImportEntries(st, entries, rules).value.store;
      forall mk :: mk in out.media ==>
        || mk in st.media
        || (Introduced(st, entries, rules.key, mk.0) && 0 <= mk.1 < |MediaOf(FirstRecord(entries, rules.key, mk.0))|)
  {
    if entries != [] {
      var n := |entries| - 1;
      ImportEntriesStep(st, entries, rules);
      ImportMediaKeys(st, entries[..n], rules);
      ImportTweetKeys(st, entries[..n], rules);
      IdsInSnoc(entries, rules.key);
      var ps := ImportEntries(st, entries[..n], rules).value.store;
      var out := ImportEntries(st, entries, rules).value.store;
      var e := entries[n];
      ImportEntryEffect(ps, e, n, rules);
      if Fresh(ps, e, rules.key) {
        var tid := rules.key(e.rec);
        UpsertMediaEffect(ps.media, tid, e.rec.media.items, rules, n);
        FirstRecordLast(entries, rules.key, tid);
      }
      forall mk | mk in out.media
        ensures || mk in st.media
                || (Introduced(st, entries, rules.key, mk.0) && 0 <= mk.1 < |MediaOf(FirstRecord(entries, rules.key, mk.0))|)
      {
        if mk in ps.media && mk !in st.media {
          FirstRecordPrefix(entries, rules.key, n, mk.0);
        }
      }
    }
  }

  /** One record keeps the store well formed. */
  lemma WellFormedStep(ps: Store, e: Entry, pos: nat, rules: Rules, out: Store)
    requires WellFormed(ps) && ImportEntry(ps, e, pos, rules) == Success(out)
    ensures WellFormed(out)
  {
    ImportEntryEffect(ps, e, pos, rules);
    if Fresh(ps, e, rules.key) {
      var tid := rules.key(e.rec);
      var m := UpsertMedia(ps.media, tid, e.rec.media.items, rules, pos);
      UpsertMediaEffect(ps.media, tid, e.rec.media.items, rules, pos);
      assert out == Store(ps.tweets[tid := MakeTweet(tid, e.rec, rules)], m.value, ps.imports);
      forall k | k in out.media ensures out.media[k].tweetId == k.0 && out.media[k].idx == k.1 {
        if InPositions(k, tid, |e.rec.media.items|) {
          assert out.media[k] == MakeMediaRow(tid, k.1, e.rec.media.items[k.1], rules);
        }
      }
    }
  }

  /** Importing keeps tweets under their own ids and media rows under their own keys, attached to stored tweets. */
  lemma {:induction false} ImportKeepsWellFormed(st: Store, entries: seq<Entry>, rules: Rules)
    requires WellFormed(st) && ImportEntries(st, entries, rules).Success?
    ensures WellFormed(ImportEntries(st, entries, rules).value.store)
  {
    if entries != [] {
      var n := |entries| - 1;
      ImportEntriesStep(st, entries, rules);
      ImportKeepsWellFormed(st, entries[..n], rules);
      WellFormedStep(ImportEntries(st, entries[..n], rules).value.store, entries[n], n, rules,
                     ImportEntries(st, entries, rules).value.store);
    }
  }

  /**
   * A record `import_one_json` accepts whatever the store holds: an object whose counters fit
   * SQLite's integers and whose media is a list of objects.
   */
  predicate Importable(e: Entry) {
    e.Object? && CountersFit(e.rec) && e.rec.media.MediaItems? && forall k :: 0 <= k < |e.rec.media.items| ==> e.rec.media.items[k].MediaObject?
  }

  /** A file of importable records always imports. */
  lemma {:induction false} ImportSucceeds(st: Store, entries: seq<Entry>, rules: Rules)
    requires forall k :: 0 <= k < |entries| ==> Importable(entries[k])
    ensures ImportEntries(st, entries, rules).Success?
  {
    if entries != [] {
      var n := |entries| - 1;
      ImportEntriesStep(st, entries, rules);
      assert forall k :: 0 <= k < n ==> entries[..n][k] == entries[k];
      ImportSucceeds(st, entries[..n], rules);
      var ps := ImportEntries(st, entries[..n], rules).value.store;
      var e := entries[n];
      ImportEntryEffect(ps, e, n, rules);
      if Fresh(ps, e, rules.key) {
        UpsertMediaSucceeds(ps.media, rules.key(e.rec), e.rec.media.items, rules, n);
      }
    }
  }

  /** The error a failed media loop reports names an attachment that is not an object. */
  lemma {:induction false} UpsertMediaFailure(media: map<(string, int), MediaRow>, tid: string, items: seq<MediaEntry>,
                                              rules: Rules, pos: nat)
    requires UpsertMedia(media, tid, items, rules, pos).Failure?
    ensures var err := UpsertMedia(media, tid, items, rules, pos).error;
      err.MediaEntryNotObject? && err.position == pos && err.index < |items| && items[err.index].MediaNotObject?
  {
    var n := |items| - 1;
    if UpsertMedia(media, tid, items[..n], rules, pos).Failure? {
      UpsertMediaFailure(media, tid, items[..n], rules, pos);
      var err := UpsertMedia(media, tid, items[..n], rules, pos).error;
      assert items[..n][err.index] == items[err.index];
    }
  }

  /** The error a failed import reports points at the offending element (and attachment). */
  lemma {:induction false} ImportFailureLocated(st: Store, entries: seq<Entry>, rules: Rules)
    requires ImportEntries(st, entries, rules).Failure?
    ensures var err := ImportEntries(st, entries, rules).error;
      match err
      case RootNotList => false
      case EntryNotObject(p) => p < |entries| && entries[p].NotObject?
      case CounterOverflow(p) => p < |entries| && entries[p].Object? && !CountersFit(entries[p].rec)
      case MediaNotIterable(p) => p < |entries| && entries[p].Object? && entries[p].rec.media.MediaNotList?
      case MediaEntryNotObject(p, i) =>
        && p < |entries| && entries[p].Object? && entries[p].rec.media.MediaItems?
        && i < |entries[p].rec.media.items| && entries[p].rec.media.items[i].MediaNotObject?
  {
    var n := |entries| - 1;
    ImportEntriesStep(st, entries, rules);
    var prev := ImportEntries(st, entries[..n], rules);
    if prev.Failure? {
      ImportFailureLocated(st, entries[..n], rules);
      var err := prev.error;
      if !err.RootNotList? {
        assert entries[..n][err.position] == entries[err.position];
      }
    } else {
      var ps := prev.value.store;
      var e := entries[n];
      ImportEntryEffect(ps, e, n, rules);
      if Fresh(ps, e, rules.key) && CountersFit(e.rec) && e.rec.media.MediaItems? {
        var m := UpsertMedia(ps.media, rules.key(e.rec), e.rec.media.items, rules, n);
        if m.Failure? {
          UpsertMediaFailure(ps.media, rules.key(e.rec), e.rec.media.items, rules, n);
        }
      }
    }
  }

  /** A file whose every id is blank or already stored changes nothing and inserts nothing. */
  lemma {:induction false} ImportKnownIds(st: Store, entries: seq<Entry>, rules: Rules)
    requires forall k :: 0 <= k < |entries| ==> entries[k].Object? && (EntryId(entries[k], rules.key) == "" || EntryId(entries[k], rules.key) in st.tweets)
    ensures ImportEntries(st, entries, rules) == Success(Imported(st, 0, |entries|))
  {
    if entries != [] {
      var n := |entries| - 1;
      ImportEntriesStep(st, entries, rules);
      assert forall k :: 0 <= k < n ==> entries[..n][k] == entries[k];
      ImportKnownIds(st, entries[..n], rules);
      ImportEntryEffect(st, entries[n], n, rules);
    }
  }

  /**
   * Importing the same file again inserts nothing and changes nothing, into the store the first
   * import left or into any later store that still holds its tweet ids.
   */
  lemma ReimportInsertsNothing(st: Store, entries: seq<Entry>, rules: Rules, later: Store)
    requires ImportEntries(st, entries, rules).Success?
    requires ImportEntries(st, entries, rules).value.store.tweets.Keys <= later.tweets.Keys
    ensures ImportEntries(later, entries, rules) == Success(Imported(later, 0, |entries|))
  {
    ImportAllObjects(st, entries, rules);
    ImportTweetKeys(st, entries, rules);
    forall k | 0 <= k < |entries|
      ensures EntryId(entries[k], rules.key) == "" || EntryId(entries[k], rules.key) in later.tweets
    {
      assert IdSeq(entries, rules.key)[k] == EntryId(entries[k], rules.key);
    }
    ImportKnownIds(later, entries, rules);
  }

  /** `import_one_json` run again on the same file, after the first run's ids are stored, inserts nothing and changes nothing. */
  lemma ImportOneTwice(st: Store, root: Root, mediaDir: Option<set<string>>, parseDt: string -> string, later: Store)
    ensures var first := ImportOne(st, root, mediaDir, parseDt);
      first.Success? && first.value.store.tweets.Keys <= later.tweets.Keys ==>
        ImportOne(later, root, mediaDir, parseDt) == Success(Imported(later, 0, |root.entries|))
  {
    var first := ImportOne(st, root, mediaDir, parseDt);
    if first.Success? && first.value.store.tweets.Keys <= later.tweets.Keys {
      ReimportInsertsNothing(st, root.entries, SourceRules(mediaDir, parseDt), later);
    }
  }
}

=== FILE: media_resolver.dfy ===
/**
 * Mapping a remote media URL to a file already cached in the media directory:
 * `url_to_candidates` guesses file names from the URL's last path segment, `choose_existing`
 * picks the first guess present on disk, and attached media try three URL roles in turn.
 * The media directory is the set of relative file names that exist under it.
 */
module MediaResolver {
  import opened Wrappers
  import opened Seqs
  import opened Urls

  /** Extensions guessed, in this priority order, for a basename without one. */
  const Extensions: seq<string> := ["jpg", "jpeg", "png", "gif", "webp", "mp4", "mov", "m4a", "mp3"]

  function WithExt(base: string, ext: string): string {
    base + "." + ext
  }

  /** `[f"{base}.{e}" for e in exts]`. */
  function Suffixed(base: string, exts: seq<string>): (r: seq<string>)
    ensures |r| == |exts|
    ensures forall k :: 0 <= k < |exts| ==> r[k] == WithExt(base, exts[k])
  {
    seq(|exts|, k requires 0 <= k < |exts| => WithExt(base, exts[k]))
  }

  /** `exts` without the entries equal to `x`, order kept. */
  function Without(exts: seq<string>, x: string): (r: seq<string>)
    ensures forall e :: e in r <==> e in exts && e != x
  {
    if exts == [] then []
    else Without(exts[..|exts| - 1], x) + (if exts[|exts| - 1] == x then [] else [exts[|exts| - 1]])
  }

  /** The candidates before the format guess and the fixed guesses: the basename, then `base.<fmt>`. */
  function Leading(base: string, fmt: string): seq<string> {
    [base] + (if fmt != "" then [WithExt(base, fmt)] else [])
  }

  /** The list `url_to_candidates` builds before dropping repeats. */
  function RawCandidates(base: string, fmt: string): (r: seq<string>)
    ensures |r| >= 1 && r[0] == base
    ensures '.' in base ==> r == [base]
    ensures forall c :: c in r ==> c == base || exists e :: (e == fmt || e in Extensions) && c == WithExt(base, e)
  {
    if '.' in base then [base] else Leading(base, fmt) + Suffixed(base, Extensions)
  }

  /**
   * The candidate file names for a non-empty basename: the basename alone when it already has a
   * `.`; otherwise the basename, `base.<fmt>` when `fmt` is non-empty, and the fixed-priority
   * guesses, each file name once and in first-occurrence order.
   */
  function CandidatesFor(base: string, fmt: string): (r: seq<string>)
    ensures '.' in base ==> r == [base]
    ensures '.' !in base ==> r == Leading(base, fmt) + Suffixed(base, Without(Extensions, fmt))
  {
    var r := Dedup(RawCandidates(base, fmt));
    if '.' !in base then
      CandidateShape(base, fmt);
      r
    else
      assert RawCandidates(base, fmt) == [base];
      DedupDistinct([base]);
      r
  }

  /** The candidate list never names a file twice, and for a non-empty basename never names `""`. */
  lemma CandidatesDistinct(base: string, fmt: string)
    ensures NoDuplicates(CandidatesFor(base, fmt))
    ensures base != "" ==> forall c :: c in CandidatesFor(base, fmt) ==> c != ""
  {
    var raw := RawCandidates(base, fmt);
    assert CandidatesFor(base, fmt) == Dedup(raw);
    if base != "" {
      forall c | c in raw ensures c != "" {
        if '.' !in base && c !in Leading(base, fmt) {
          var k :| 0 <= k < |Suffixed(base, Extensions)| && Suffixed(base, Extensions)[k] == c;
          assert |WithExt(base, Extensions[k])| > 0;
        }
      }
    }
  }

  /** `url_to_candidates(url)`: no candidates for an empty URL or an empty basename. */
  function UrlToCandidates(url: string): (r: seq<string>)
    ensures url == "" || BaseName(url) == "" ==> r == []
    ensures url != "" && BaseName(url) != "" ==> r == CandidatesFor(BaseName(url), FormatParam(url))
  {
    if url == "" then []
    else
      var base := BaseName(url);
      if base == "" then [] else CandidatesFor(base, FormatParam(url))
  }

  lemma WithExtInjective(base: string, e1: string, e2: string)
    requires WithExt(base, e1) == WithExt(base, e2)
    ensures e1 == e2
  {
    assert e1 == WithExt(base, e1)[|base| + 1..];
    assert e2 == WithExt(base, e2)[|base| + 1..];
  }

  lemma ExtensionsDistinct()
    ensures NoDuplicates(Extensions)
    ensures "" !in Extensions
  {
  }

  lemma SuffixedDistinct(base: string, exts: seq<string>)
    requires NoDuplicates(exts)
    ensures NoDuplicates(Suffixed(base, exts))
  {
    var r := Suffixed(base, exts);
    forall i, j | 0 <= i < j < |r| ensures r[i] != r[j] {
      if r[i] == r[j] {
        WithExtInjective(base, exts[i], exts[j]);
      }
    }
  }

  /** Of the fixed guesses, only `base.<fmt>` repeats a leading candidate. */
  lemma {:induction false} UnseenSuffixed(base: string, exts: seq<string>, fmt: string)
    requires fmt != "" || "" !in exts
    ensures Unseen(Suffixed(base, exts), Leading(base, fmt)) == Suffixed(base, Without(exts, fmt))
  {
    if exts != [] {
      var init := exts[..|exts| - 1];
      var e := exts[|exts| - 1];
      assert "" !in exts ==> "" !in init;
      UnseenSuffixed(base, init, fmt);
      var s := Suffixed(base, exts);
      assert s[..|s| - 1] == Suffixed(base, init);
      assert s[|s| - 1] == WithExt(base, e);
      assert WithExt(base, e) != base by {
        assert |WithExt(base, e)| > |base|;
      }
      assert WithExt(base, e) in Leading(base, fmt) <==> e == fmt by {
        if WithExt(base, e) in Leading(base, fmt) {
          WithExtInjective(base, e, fmt);
        }
      }
      var w := Without(init, fmt);
      if e == fmt {
        assert Without(exts, fmt) == w;
      } else {
        assert Without(exts, fmt) == w + [e];
        assert Suffixed(base, w + [e]) == Suffixed(base, w) + [WithExt(base, e)];
      }
    }
  }

  /** The deduplicated candidate list of an extension-less basename, spelled out. */
  lemma CandidateShape(base: string, fmt: string)
    requires '.' !in base
    ensures Dedup(RawCandidates(base, fmt)) == Leading(base, fmt) + Suffixed(base, Without(Extensions, fmt))
  {
    var lead := Leading(base, fmt);
    ExtensionsDistinct();
    SuffixedDistinct(base, Extensions);
    DedupAppendDistinct(lead, Suffixed(base, Extensions));
    assert NoDuplicates(lead) by {
      if fmt != "" {
        assert |WithExt(base, fmt)| > |base|;
      }
    }
    DedupDistinct(lead);
    UnseenSuffixed(base, Extensions, fmt);
  }

  /** `choose_existing(media_dir, cands)`: the first candidate present in the directory. */
  function ChooseExisting(dir: set<string>, cands: seq<string>): (r: Option<string>)
    ensures r.None? <==> forall k :: 0 <= k < |cands| ==> cands[k] !in dir
    ensures r.Some? ==> r.value in cands && r.value in dir
    ensures r.Some? ==> forall j :: 0 <= j < FirstIndex(cands, r.value) ==> cands[j] !in dir
  {
    if cands == [] then None
    else if cands[0] in dir then Some(cands[0])
    else
      var r := ChooseExisting(dir, cands[1..]);
      if r.Some? then
        assert FirstIndex(cands, r.value) == 1 + FirstIndex(cands[1..], r.value);
        r
      else
        r
  }

  /** The local file one URL resolves to: `choose_existing(media_dir, url_to_candidates(url))`. */
  function ResolveUrl(dir: set<string>, url: string): (r: Option<string>)
    ensures url == "" ==> r.None?
    ensures r.None? <==> forall c :: c in UrlToCandidates(url) ==> c !in dir
    ensures r.Some? ==> r.value in dir && r.value in UrlToCandidates(url)
    ensures r.Some? ==> forall j :: 0 <= j < FirstIndex(UrlToCandidates(url), r.value) ==> UrlToCandidates(url)[j] !in dir
  {
    ChooseExisting(dir, UrlToCandidates(url))
  }

  /**
   * The loop over URL roles in `import_one_json`: empty roles are skipped, and the loop stops at
   * the first role that `resolve` maps to a file. The result is that role's position, or `|roles|`
   * when no role resolves.
   */
  function FirstResolvingRole(resolve: string -> Option<string>, roles: seq<string>): (k: nat)
    ensures k <= |roles|
    ensures forall j :: 0 <= j < k ==> roles[j] == "" || resolve(roles[j]).None?
    ensures k < |roles| ==> roles[k] != "" && resolve(roles[k]).Some?
  {
    if roles == [] then 0
    else if roles[0] != "" && resolve(roles[0]).Some? then 0
    else 1 + FirstResolvingRole(resolve, roles[1..])
  }

  /** The local file the roles loop leaves behind: that of the first resolving role, if any. */
  function ResolveFromRoles(resolve: string -> Option<string>, roles: seq<string>): (r: Option<string>)
    ensures r.None? <==> forall k :: 0 <= k < |roles| ==> roles[k] == "" || resolve(roles[k]).None?
    ensures r.Some? ==> exists k :: 0 <= k < |roles| && roles[k] != "" && r == resolve(roles[k])
  {
    var k := FirstResolvingRole(resolve, roles);
    if k < |roles| then resolve(roles[k]) else None
  }

  /** `local_file` of an attached media item: original, then thumbnail, then primary URL; none without a media directory. */
  function ResolveMediaFile(mediaDir: Option<set<string>>, original: string, thumbnail: string, url: string): (r: Option<string>)
    ensures mediaDir.None? ==> r.None?
    ensures r.Some? ==> r.value in mediaDir.value
  {
    if mediaDir.None? then None
    else
      var dir := mediaDir.value;
      ResolveFromRoles(u => ResolveUrl(dir, u), [original, thumbnail, url])
  }

  /** `profile_image_file`: the avatar URL alone is tried, and only with a media directory. */
  function ResolveAvatar(mediaDir: Option<set<string>>, url: string): (r: Option<string>)
    ensures mediaDir.None? || url == "" ==> r.None?
    ensures r.Some? ==> r.value in mediaDir.value
    ensures mediaDir.Some? && url != "" ==> r == ResolveUrl(mediaDir.value, url)
  {
    if mediaDir.Some? && url != "" then ResolveUrl(mediaDir.value, url) else None
  }

  /** The roles loop returns the file of the first role that resolves, trying roles strictly in order. */
  lemma RolesPriority(resolve: string -> Option<string>, a: string, b: string, c: string)
    ensures a != "" && resolve(a).Some? ==> ResolveFromRoles(resolve, [a, b, c]) == resolve(a)
    ensures (a == "" || resolve(a).None?) && b != "" && resolve(b).Some? ==>
      ResolveFromRoles(resolve, [a, b, c]) == resolve(b)
    ensures (a == "" || resolve(a).None?) && (b == "" || resolve(b).None?) ==>
      ResolveFromRoles(resolve, [a, b, c]) == (if c == "" then None else resolve(c))
  {
    var roles := [a, b, c];
    assert roles[1..] == [b, c];
    assert roles[1..][1..] == [c];
    assert roles[1..][1..][1..] == [];
    var kc := FirstResolvingRole(resolve, [c]);
    var kb := FirstResolvingRole(resolve, [b, c]);
    var k := FirstResolvingRole(resolve, roles);
    assert (a == "" || resolve(a).None?) ==> k == 1 + kb;
    assert (b == "" || resolve(b).None?) ==> kb == 1 + kc;
  }

  /** The first two candidates of an extension-less basename: the basename, then `base.<fmt>`. */
  lemma CandidatesLead(base: string, fmt: string)
    requires '.' !in base
    ensures |CandidatesFor(base, fmt)| >= 1 && CandidatesFor(base, fmt)[0] == base
    ensures fmt != "" ==> |CandidatesFor(base, fmt)| >= 2 && CandidatesFor(base, fmt)[1] == WithExt(base, fmt)
  {
  }

  /** A candidate listed before every occurrence of the chosen name is not on disk. */
  lemma ChooseSkipsEarlier(dir: set<string>, cands: seq<string>, i: nat)
    requires i < |cands| && ChooseExisting(dir, cands).Some?
    requires forall j :: 0 <= j <= i ==> cands[j] != ChooseExisting(dir, cands).value
    ensures cands[i] !in dir
  {
    var v := ChooseExisting(dir, cands).value;
    assert FirstIndex(cands, v) > i;
  }

  /**
   * The `format` guess wins over every fixed guess: when the bare basename is not on disk but
   * `base.<format>` is, that file is chosen, even if `base.jpg` and the others exist too.
   */
  lemma FormatGuessPreferred(dir: set<string>, base: string, fmt: string)
    requires '.' !in base && fmt != ""
    requires base !in dir && WithExt(base, fmt) in dir
    ensures ChooseExisting(dir, CandidatesFor(base, fmt)) == Some(WithExt(base, fmt))
  {
    CandidatesLead(base, fmt);
    var cands := CandidatesFor(base, fmt);
    assert cands[1..][0] == WithExt(base, fmt);
  }

  /**
   * A fixed-extension guess is chosen only when neither the bare basename nor the
   * `format` guess exists on disk.
   */
  lemma FixedGuessOnlyAsFallback(dir: set<string>, base: string, fmt: string, e: string)
    requires '.' !in base && e != fmt
    ensures ChooseExisting(dir, CandidatesFor(base, fmt)) == Some(WithExt(base, e)) ==>
      base !in dir && (fmt != "" ==> WithExt(base, fmt) !in dir)
  {
    if ChooseExisting(dir, CandidatesFor(base, fmt)) != Some(WithExt(base, e)) {
      return;
    }
    CandidatesLead(base, fmt);
    var cands := CandidatesFor(base, fmt);
    var chosen := WithExt(base, e);
    assert chosen != base by {
      assert |chosen| > |base|;
    }
    ChooseSkipsEarlier(dir, cands, 0);
    if fmt != "" {
      assert chosen != WithExt(base, fmt) by {
        if chosen == WithExt(base, fmt) {
          WithExtInjective(base, e, fmt);
        }
      }
      ChooseSkipsEarlier(dir, cands, 1);
    }
  }
}

=== FILE: ordering.dfy ===
/**
 * `SELECT ... WHERE p ORDER BY ... LIMIT n` over a table held as a sequence: the rows satisfying
 * `p`, sorted by a total preorder (ties in any order, as SQLite leaves them), then cut to the
 * first `n` (all of them when `n` is negative).
 */
module Ordering {

  /** `le` compares any two values, and comparisons chain. */
  ghost predicate TotalPreorder<T(!new)>(le: (T, T) -> bool) {
    && (forall a, b :: le(a, b) || le(b, a))
    && (forall a, b, c :: le(a, b) && le(b, c) ==> le(a, c))
  }

  predicate Sorted<T>(s: seq<T>, le: (T, T) -> bool) {
    forall i, j :: 0 <= i < j < |s| ==> le(s[i], s[j])
  }

  /** `x` placed into the sorted `s` before the first element it does not follow. */
  function Insert<T(==,!new)>(x: T, s: seq<T>, le: (T, T) -> bool): (r: seq<T>)
    requires TotalPreorder(le) && Sorted(s, le)
    ensures multiset(r) == multiset(s) + multiset{x}
    ensures Sorted(r, le)
  {
    if s == [] then
      [x]
    else if le(x, s[0]) then
      assert forall j :: 0 < j < |s| ==> le(x, s[j]) by {
        assert forall j :: 0 < j < |s| ==> le(s[0], s[j]);
      }
      [x] + s
    else
      var rest := Insert(x, s[1..], le);
      assert s == [s[0]] + s[1..];
      InsertHeadBound(x, s, rest, le);
      [s[0]] + rest
  }

  lemma InsertHeadBound<T(!new)>(x: T, s: seq<T>, rest: seq<T>, le: (T, T) -> bool)
    requires TotalPreorder(le) && Sorted(s, le) && |s| > 0 && !le(x, s[0])
    requires multiset(rest) == multiset(s[1..]) + multiset{x} && Sorted(rest, le)
    ensures Sorted([s[0]] + rest, le)
  {
    forall j | 0 <= j < |rest| ensures le(s[0], rest[j]) {
      assert rest[j] in multiset(rest);
      if rest[j] != x {
        assert rest[j] in multiset(s[1..]);
        var k :| 0 <= k < |s[1..]| && s[1..][k] == rest[j];
        assert s[k + 1] == rest[j];
      }
    }
  }

  /** Insertion sort: a permutation of `s` sorted by `le`. */
  function SortBy<T(==,!new)>(s: seq<T>, le: (T, T) -> bool): (r: seq<T>)
    requires TotalPreorder(le)
    ensures multiset(r) == multiset(s)
    ensures Sorted(r, le)
  {
    if s == [] then
      []
    else
      var n := |s| - 1;
      assert s == s[..n] + [s[n]];
      Insert(s[n], SortBy(s[..n], le), le)
  }

  /** SQLite's `LIMIT n`: a negative `n` means no limit. */
  function Limit<T>(s: seq<T>, n: int): (r: seq<T>)
    ensures |r| == (if 0 <= n < |s| then n else |s|) && r == s[..|r|]
  {
    if n < 0 || n >= |s| then s else s[..n]
  }

  /**
   * Cutting a sorted sequence keeps its best rows: the cut is a sorted prefix, no longer than the
   * limit, complete when the limit is not reached, and every row left out follows every row kept.
   */
  lemma LimitSorted<T>(s: seq<T>, n: int, le: (T, T) -> bool)
    requires Sorted(s, le)
    ensures var r := Limit(s, n);
      && Sorted(r, le)
      && multiset(r) <= multiset(s)
      && (n >= 0 ==> |r| <= n)
      && ((n < 0 || |r| < n) ==> multiset(r) == multiset(s))
      && (forall i, x :: 0 <= i < |r| && x in multiset(s) - multiset(r) ==> le(r[i], x))
  {
    var r := Limit(s, n);
    var k := |r|;
    assert s == r + s[k..];
    assert multiset(s) - multiset(r) == multiset(s[k..]);
    forall i, x | 0 <= i < |r| && x in multiset(s) - multiset(r) ensures le(r[i], x) {
      assert x in multiset(s[k..]);
      var j :| 0 <= j < |s[k..]| && s[k..][j] == x;
      assert s[k + j] == x;
    }
  }

  /** `WHERE p`: the rows of `s` satisfying `p`, each as often as it occurs in `s`. */
  function Where<T(==,!new)>(s: seq<T>, p: T -> bool): (r: seq<T>)
    ensures forall x :: multiset(r)[x] == if p(x) then multiset(s)[x] else 0
  {
    if s == [] then
      []
    else
      assert s == [s[0]] + s[1..];
      (if p(s[0]) then [s[0]] else []) + Where(s[1..], p)
  }

  /** The whole query: filter, sort, cut. */
  function Select<T(==,!new)>(s: seq<T>, p: T -> bool, le: (T, T) -> bool, n: int): (r: seq<T>)
    requires TotalPreorder(le)
    ensures Sorted(r, le)
    ensures n >= 0 ==> |r| <= n
  {
    var sorted := SortBy(Where(s, p), le);
    LimitSorted(sorted, n, le);
    Limit(sorted, n)
  }

  /**
   * What a query returns: rows of the table (never more copies than it holds) that satisfy `p`,
   * in `le` order, at most `n` of them, and every qualifying row when the limit is not reached.
   */
  lemma SelectMeaning<T(!new)>(s: seq<T>, p: T -> bool, le: (T, T) -> bool, n: int)
    requires TotalPreorder(le)
    ensures var r := Select(s, p, le, n);
      && multiset(r) <= multiset(s)
      && (forall i :: 0 <= i < |r| ==> p(r[i]))
      && Sorted(r, le)
      && (n >= 0 ==> |r| <= n)
      && ((n < 0 || |r| < n) ==> forall x :: p(x) ==> multiset(r)[x] == multiset(s)[x])
  {
    var w := Where(s, p);
    var r := Select(s, p, le, n);
    LimitSorted(SortBy(w, le), n, le);
    forall i | 0 <= i < |r| ensures p(r[i]) {
      assert r[i] in multiset(r);
      assert multiset(w)[r[i]] > 0;
    }
  }

  /** A query keeps its best rows: no qualifying row it leaves out should come before one it returns. */
  lemma SelectTopRows<T(!new)>(s: seq<T>, p: T -> bool, le: (T, T) -> bool, n: int)
    requires TotalPreorder(le)
    ensures var r := Select(s, p, le, n);
      forall i, x :: 0 <= i < |r| && x in multiset(s) - multiset(r) && p(x) ==> le(r[i], x)
  {
    var sorted := SortBy(Where(s, p), le);
    var r := Select(s, p, le, n);
    LimitSorted(sorted, n, le);
    forall i, x | 0 <= i < |r| && x in multiset(s) - multiset(r) && p(x) ensures le(r[i], x) {
      assert x in multiset(sorted) - multiset(r);
    }
  }
}

=== FILE: pyint.dfy ===
/**
 * Python's `str()` of an integer and `int()` of a string (base 10), the two conversions
 * the ingester applies to JSON scalars: `str()` renders record ids and reply targets,
 * `int()` reads the popularity counters.
 */
module PyInt {
  import opened Wrappers
  import opened Text

  predicate IsDigit(c: char) {
    '0' <= c <= '9'
  }

  predicate AllDigits(s: string) {
    forall i :: 0 <= i < |s| ==> IsDigit(s[i])
  }

  function DigitValue(c: char): (d: nat)
    requires IsDigit(c)
    ensures d < 10
  {
    c as int - '0' as int
  }

  function DigitChar(d: nat): (c: char)
    requires d < 10
    ensures IsDigit(c) && DigitValue(c) == d
  {
    ('0' as int + d) as char
  }

  /** `str(n)` for `n >= 0`: decimal digits without a leading zero. */
  function NatToDecimal(n: nat): (s: string)
    ensures |s| >= 1 && AllDigits(s)
    ensures |s| > 1 ==> s[0] != '0'
  {
    if n < 10 then [DigitChar(n)] else NatToDecimal(n / 10) + [DigitChar(n % 10)]
  }

  /** `str(i)` for any integer: a minus sign in front of the magnitude when negative. */
  function IntToDecimal(i: int): (s: string)
    ensures |s| >= 1
    ensures i < 0 <==> s[0] == '-'
  {
    if i < 0 then "-" + NatToDecimal(-i) else NatToDecimal(i)
  }

  /** The number a string of decimal digits denotes. */
  function DigitsValue(s: string): nat
    requires AllDigits(s)
  {
    if s == [] then 0 else DigitsValue(s[..|s| - 1]) * 10 + DigitValue(s[|s| - 1])
  }

  lemma {:induction false} DecimalValue(n: nat)
    ensures DigitsValue(NatToDecimal(n)) == n
  {
    if n >= 10 {
      DecimalValue(n / 10);
      var s := NatToDecimal(n);
      assert s[..|s| - 1] == NatToDecimal(n / 10);
    }
  }

  /**
   * The digit part `int()` accepts: digits, where a single underscore may separate two digits
   * (so it neither starts nor ends the literal, and never doubles).
   */
  predicate IsDigitBody(b: string) {
    && |b| > 0
    && IsDigit(b[0])
    && IsDigit(b[|b| - 1])
    && forall i :: 0 <= i < |b| ==> IsDigit(b[i]) || (b[i] == '_' && i + 1 < |b| && IsDigit(b[i + 1]))
  }

  lemma BodyChars(b: string)
    requires IsDigitBody(b)
    ensures forall i :: 0 <= i < |b| ==> IsDigit(b[i]) || b[i] == '_'
  {
    forall i | 0 <= i < |b| ensures IsDigit(b[i]) || b[i] == '_' {
      assert IsDigit(b[i]) || (b[i] == '_' && i + 1 < |b| && IsDigit(b[i + 1]));
    }
  }

  function RemoveUnderscores(b: string): (r: string)
    requires forall i :: 0 <= i < |b| ==> IsDigit(b[i]) || b[i] == '_'
    ensures AllDigits(r)
    ensures '_' !in b ==> r == b
  {
    if b == [] then []
    else (if b[0] == '_' then [] else [b[0]]) + RemoveUnderscores(b[1..])
  }

  /**
   * The whitespace `int()` skips around a number: everything `str.isspace()` accepts except the
   * information separators U+001C to U+001F, which CPython neither skips nor maps to a space.
   */
  predicate IsIntSpace(c: char) {
    IsSpace(c) && !('\U{1C}' <= c <= '\U{1F}')
  }

  /** `s` with its leading and trailing `int()` whitespace removed. */
  function IntStrip(s: string): (r: string)
    ensures |r| <= |s|
    ensures r == [] || (!IsIntSpace(r[0]) && !IsIntSpace(r[|r| - 1]))
    ensures |s| > 0 && !IsIntSpace(s[0]) ==> |r| > 0 && r[0] == s[0]
    ensures |s| > 0 && !IsIntSpace(s[|s| - 1]) ==> |r| > 0 && r[|r| - 1] == s[|s| - 1]
    ensures forall c :: c in r ==> c in s
  {
    if s == [] then s
    else if IsIntSpace(s[0]) then IntStrip(s[1..])
    else if IsIntSpace(s[|s| - 1]) then IntStrip(s[..|s| - 1])
    else s
  }

  /** Without an information separator in it, a string strips for `int()` as `str.strip()` strips it. */
  lemma {:induction false} IntStripIsStrip(s: string)
    requires forall i :: 0 <= i < |s| ==> !('\U{1C}' <= s[i] <= '\U{1F}')
    ensures IntStrip(s) == Strip(s)
  {
    if s == [] {
    } else if IsIntSpace(s[0]) {
      IntStripIsStrip(s[1..]);
      assert TrimStart(s) == TrimStart(s[1..]);
    } else if IsIntSpace(s[|s| - 1]) {
      var f := s[..|s| - 1];
      IntStripIsStrip(f);
      assert TrimStart(s) == s && TrimStart(f) == f;
      assert TrimEnd(s) == TrimEnd(f);
    } else {
      assert IntStrip(s) == s;
    }
  }

  /**
   * Python's `int(s)` for a string: `int()` whitespace around the number is ignored, then one
   * optional sign and a digit body; anything else raises, which the ingester turns into NULL.
   */
  function ParseInt(s: string): (r: Option<int>)
    ensures AllSpace(s) ==> r.None?
    ensures |s| > 0 && '\U{1C}' <= s[0] <= '\U{1F}' ==> r.None?
    ensures |s| > 0 && '\U{1C}' <= s[|s| - 1] <= '\U{1F}' ==> r.None?
  {
    var t := IntStrip(s);
    assert AllSpace(s) && t != [] ==> IsSpace(t[0]) by {
      if AllSpace(s) && t != [] {
        assert t[0] in s;
      }
    }
    ParseSigned(t)
  }

  /**
   * CPython 3.12's default limit on the digits of a decimal integer string: `int()` raises
   * `ValueError` for a longer one (underscores do not count) and `str()` for a larger integer.
   */
  const MaxStrDigits: nat := 4300

  /** `int()` of a string that has already been stripped. */
  function ParseSigned(t: string): (r: Option<int>)
    ensures r.Some? ==> |t| > 0 && (IsDigit(t[0]) || t[0] == '-' || t[0] == '+') && IsDigit(t[|t| - 1])
  {
    var signed := |t| > 0 && (t[0] == '-' || t[0] == '+');
    var body := if signed then t[1..] else t;
    if IsDigitBody(body) then
      BodyChars(body);
      var digits := RemoveUnderscores(body);
      if |digits| > MaxStrDigits then
        None
      else
        var v: int := DigitsValue(digits);
        Some(if signed && t[0] == '-' then -v else v)
    else
      None
  }

  /** The number of decimal digits of `|i|`. */
  function DigitCount(i: int): nat {
    |NatToDecimal(if i < 0 then -i else i)|
  }

  /**
   * `int(str(i)) == i`: reading back a rendered integer gives the integer, as long as it has at
   * most `MaxStrDigits` digits; a longer rendering is rejected.
   */
  lemma DecimalRoundTrip(i: int)
    ensures ParseInt(IntToDecimal(i)) == if DigitCount(i) <= MaxStrDigits then Some(i) else None
  {
    var s := IntToDecimal(i);
    var m: nat := if i < 0 then -i else i;
    var d := NatToDecimal(m);
    DecimalValue(m);
    assert IsDigit(d[0]) && IsDigit(d[|d| - 1]);
    if i < 0 {
      assert s == "-" + d;
      assert IntStrip(s) == s;
      ParseNegative(d);
    } else {
      assert s == d;
      assert IntStrip(s) == s;
      ParseUnsigned(d);
    }
  }

  /** Plain digits read as the number they denote, unless there are more than `MaxStrDigits` of them. */
  lemma ParseUnsigned(d: string)
    requires |d| > 0 && AllDigits(d)
    ensures ParseSigned(d) == if |d| <= MaxStrDigits then Some(DigitsValue(d) as int) else None
  {
    DigitsAreBody(d);
    assert d[0] != '-' && d[0] != '+';
  }

  /** A minus sign in front of plain digits reads as the negated number, within the digit limit. */
  lemma ParseNegative(d: string)
    requires |d| > 0 && AllDigits(d)
    ensures ParseSigned("-" + d) == if |d| <= MaxStrDigits then Some(-(DigitsValue(d) as int)) else None
  {
    DigitsAreBody(d);
    assert ("-" + d)[1..] == d;
  }

  lemma DigitsAreBody(d: string)
    requires |d| > 0 && AllDigits(d)
    ensures IsDigitBody(d)
    ensures RemoveUnderscores(d) == d
  {
    assert '_' !in d;
  }
}

=== FILE: search.dfy ===
/**
 * The query side of the viewer: keyword search over the tweets table, with optional filters,
 * using the full-text index when it exists and a substring scan otherwise; and the listing of
 * one tweet's attachments.
 */
module Search {
  import opened Wrappers
  import opened Text
  import opened Store
  import opened Ordering

  /** The sidebar options: media only, and minimum bookmark and like counts (0 means any). */
  datatype Filters = Filters(onlyMedia: bool, minBookmark: int, minFav: int)

  /** A nullable counter reaches a threshold only when it is present. */
  predicate AtLeast(v: Option<int>, min: int) {
    v.Some? && v.value >= min
  }

  /** What the filter options mean, one option at a time; a threshold of 0 or less filters nothing. */
  predicate PassesFilters(t: Tweet, f: Filters) {
    && (f.onlyMedia ==> t.hasMedia)
    && (f.minBookmark > 0 ==> AtLeast(t.bookmarkCount, f.minBookmark))
    && (f.minFav > 0 ==> AtLeast(t.favoriteCount, f.minFav))
  }

  /** One condition of the extra WHERE text. */
  datatype Clause = HasMediaClause | BookmarkAtLeast(min: int) | FavoriteAtLeast(min: int)

  predicate Holds(c: Clause, t: Tweet) {
    match c
    case HasMediaClause => t.hasMedia
    case BookmarkAtLeast(n) => AtLeast(t.bookmarkCount, n)
    case FavoriteAtLeast(n) => AtLeast(t.favoriteCount, n)
  }

  /** The conditions the query builder appends, in order; they are joined with AND. */
  function FilterClauses(f: Filters): seq<Clause> {
    (if f.onlyMedia then [HasMediaClause] else [])
    + (if f.minBookmark > 0 then [BookmarkAtLeast(f.minBookmark)] else [])
    + (if f.minFav > 0 then [FavoriteAtLeast(f.minFav)] else [])
  }

  predicate AllHold(cs: seq<Clause>, t: Tweet) {
    forall i :: 0 <= i < |cs| ==> Holds(cs[i], t)
  }

  /**
   * The conjunction of the appended conditions is exactly what the options mean, and with no
   * option active nothing is appended.
   */
  lemma FilterClausesMeaning(f: Filters, t: Tweet)
    ensures AllHold(FilterClauses(f), t) <==> PassesFilters(t, f)
    ensures FilterClauses(f) == [] <==> !f.onlyMedia && f.minBookmark <= 0 && f.minFav <= 0
  {
    var cs := FilterClauses(f);
    if AllHold(cs, t) {
      if f.onlyMedia {
        assert Holds(cs[0], t);
      }
      var b := if f.onlyMedia then 1 else 0;
      if f.minBookmark > 0 {
        assert Holds(cs[b], t);
      }
      if f.minFav > 0 {
        var c := b + if f.minBookmark > 0 then 1 else 0;
        assert Holds(cs[c], t);
      }
    }
  }

  /**
   * `field LIKE pattern` with the pattern `'%' + q + '%'`, and `q` free of wildcards: an
   * ASCII-case-insensitive substring test. SQLite reads the field and the pattern as C strings,
   * so each ends at its first U+0000. A query holding U+0000 therefore loses the closing `%`,
   * and what is left of it must end the field.
   */
  predicate FieldLike(field: string, q: string): (r: bool)
    ensures q == "" ==> r
    ensures '\0' !in field && '\0' !in q ==> (r <==> Contains(Lower(field), Lower(q)))
    ensures r ==> Contains(Lower(BeforeNul(field)), Lower(BeforeNul(q)))
  {
    var f := Lower(BeforeNul(field));
    if '\0' in q then
      var p := Lower(BeforeNul(q));
      assert EndsWith(f, p) ==> OccursAt(p, f, |f| - |p|);
      EndsWith(f, p)
    else
      EmptyOccursEverywhere(f);
      Contains(f, Lower(q))
  }

  /** Text after the first U+0000 of a field never takes part in a match. */
  lemma FieldLikeIgnoresTail(field: string, q: string)
    ensures FieldLike(field, q) <==> FieldLike(BeforeNul(field), q)
  {
  }

  /** A query holding U+0000 matches a field that ends with the query's part before it. */
  lemma NulQueryMatchesSuffix(field: string, q: string)
    requires '\0' !in field && '\0' in q && EndsWith(field, BeforeNul(q))
    ensures FieldLike(field, q)
  {
    var p := BeforeNul(q);
    var n := |field| - |p|;
    assert Lower(field)[n..] == Lower(p);
  }

  /** An occurrence after a field's U+0000 is not found: `"a\0b"` does not match `b`. */
  lemma NulHidesFieldTail()
    ensures !FieldLike("a\0b", "b")
  {
    var f := "a\0b";
    assert f[1..][0] == '\0';
    assert BeforeNul(f) == ['a'] + BeforeNul(f[1..]);
    assert Lower("a") == "a" && Lower("b") == "b";
    assert !OccursAt("b", "a", 0);
  }

  /** A query holding U+0000 asks for a suffix: `"xzz"` matches `"zz\0q"`, and `"xzzy"` does not. */
  lemma NulQueryAsksSuffix()
    ensures FieldLike("xzz", "zz\0q") && !FieldLike("xzzy", "zz\0q")
  {
    var q := "zz\0q";
    assert q[2] == '\0';
    assert BeforeNul(q) == "zz" by {
      assert BeforeNul(q) == [q[0]] + BeforeNul(q[1..]);
      assert BeforeNul(q[1..]) == [q[1]] + BeforeNul(q[2..]);
      assert q[2..][0] == '\0';
    }
    assert Lower("zz") == "zz";
    NulQueryMatchesSuffix("xzz", q);
    assert Lower("xzzy")[2..] == "zy";
  }

  /** The substring fallback's text condition: the query occurs in the text, handle or name. */
  predicate LikeMatches(t: Tweet, q: string): (r: bool)
    ensures q == "" ==> r
    ensures '\0' !in t.fullText + t.screenName + t.name && '\0' !in q ==>
      (r <==> Contains(Lower(t.fullText), Lower(q)) || Contains(Lower(t.screenName), Lower(q)) || Contains(Lower(t.name), Lower(q)))
  {
    assert '\0' !in t.fullText + t.screenName + t.name ==> '\0' !in t.fullText && '\0' !in t.screenName && '\0' !in t.name by {
      if '\0' !in t.fullText + t.screenName + t.name {
        forall c | c in t.fullText || c in t.screenName || c in t.name ensures c in t.fullText + t.screenName + t.name { }
      }
    }
    FieldLike(t.fullText, q) || FieldLike(t.screenName, q) || FieldLike(t.name, q)
  }

  /** With an empty query the pattern is a lone `%`, which every row matches. */
  lemma EmptyQueryMatchesAll(t: Tweet)
    ensures LikeMatches(t, "")
  {
    EmptyOccursEverywhere(Lower(BeforeNul(t.fullText)));
  }

  /**
   * A query without U+0000 that occurs verbatim before the first U+0000 of the text, handle or
   * name matches, whatever its case.
   */
  lemma VerbatimOccurrenceMatches(t: Tweet, q: string)
    requires '\0' !in q
    requires Contains(BeforeNul(t.fullText), q) || Contains(BeforeNul(t.screenName), q) || Contains(BeforeNul(t.name), q)
    ensures LikeMatches(t, q)
  {
    if Contains(BeforeNul(t.fullText), q) {
      ContainsLower(BeforeNul(t.fullText), q);
    } else if Contains(BeforeNul(t.screenName), q) {
      ContainsLower(BeforeNul(t.screenName), q);
    } else {
      ContainsLower(BeforeNul(t.name), q);
    }
  }

  /** The text columns the full-text index holds for a tweet; the insert trigger copies them. */
  datatype Doc = Doc(fullText: string, screenName: string, name: string)

  function DocOf(t: Tweet): (d: Doc)
    ensures d.fullText == t.fullText && d.screenName == t.screenName && d.name == t.name
  {
    Doc(t.fullText, t.screenName, t.name)
  }

  /**
   * The full-text index, seen from outside: whether the query language accepts a query, whether
   * a document matches it, and the document's bm25 rank (lower is more relevant).
   */
  datatype FtsIndex = FtsIndex(
    accepts: string -> bool,
    matches: (string, Doc) -> bool,
    bm25: (string, Doc) -> real)

  /** Which query ran: the ranked full-text one, or the substring fallback. */
  datatype Mode = Fts | Like

  datatype Hits = Hits(rows: seq<Tweet>, mode: Mode)

  /**
   * Why a search raises: an integer parameter does not fit SQLite's 64-bit integers (binding it
   * raises `OverflowError`), or the full-text engine rejected the query (a MATCH syntax error).
   */
  datatype SearchError = ParameterOverflow | FtsQueryRejected(query: string)

  /** Every integer the search binds fits: the limit always, a threshold only when it is positive. */
  predicate BindsAsInt64(limit: int, f: Filters) {
    && IsInt64(limit)
    && (f.minBookmark > 0 ==> f.minBookmark <= Int64Max)
    && (f.minFav > 0 ==> f.minFav <= Int64Max)
  }

  /** `ORDER BY created_at_utc DESC`: later timestamps first in binary text order, NULLs last. */
  predicate NewerOrSame(a: Tweet, b: Tweet): (r: bool)
    ensures a.createdAtUtc.Some? && b.createdAtUtc.Some? ==> (r <==> StrLe(b.createdAtUtc.value, a.createdAtUtc.value))
    ensures a.createdAtUtc.Some? && b.createdAtUtc.None? ==> r
    ensures a.createdAtUtc.None? ==> (r <==> b.createdAtUtc.None?)
  {
    match (a.createdAtUtc, b.createdAtUtc)
    case (Some(x), Some(y)) => StrLe(y, x)
    case (Some(_), None) => true
    case (None, Some(_)) => false
    case (None, None) => true
  }

  lemma NewerOrSamePreorder()
    ensures TotalPreorder(NewerOrSame)
  {
    forall a: Tweet, b: Tweet ensures NewerOrSame(a, b) || NewerOrSame(b, a) {
      if a.createdAtUtc.Some? && b.createdAtUtc.Some? {
        StrLeTotal(a.createdAtUtc.value, b.createdAtUtc.value);
      }
    }
    forall a: Tweet, b: Tweet, c: Tweet | NewerOrSame(a, b) && NewerOrSame(b, c)
      ensures NewerOrSame(a, c)
    {
      if a.createdAtUtc.Some? && b.createdAtUtc.Some? && c.createdAtUtc.Some? {
        StrLeTransitive(c.createdAtUtc.value, b.createdAtUtc.value, a.createdAtUtc.value);
      }
    }
  }

  /** `ORDER BY bm25(tweets_fts) ASC`. */
  function ByRank(index: FtsIndex, q: string): (Tweet, Tweet) -> bool {
    (a: Tweet, b: Tweet) => index.bm25(q, DocOf(a)) <= index.bm25(q, DocOf(b))
  }

  lemma ByRankPreorder(index: FtsIndex, q: string)
    ensures TotalPreorder(ByRank(index, q))
  {
  }

  /** The WHERE clause of the query that runs in `mode`: its text condition and every filter. */
  predicate Selected(t: Tweet, query: string, mode: Mode, fts: Option<FtsIndex>, f: Filters) {
    && PassesFilters(t, f)
    && match mode
       case Like => LikeMatches(t, query)
       case Fts => fts.Some? && fts.value.matches(query, DocOf(t))
  }

  /** The query text as searched: a missing query is empty, and surrounding whitespace is dropped. */
  function Query(q: Option<string>): (query: string)
    ensures query == [] || (!IsSpace(query[0]) && !IsSpace(query[|query| - 1]))
    ensures exists i :: StrippedAt(q.GetOr(""), query, i)
    ensures query == [] <==> AllSpace(q.GetOr(""))
  {
    Strip(q.GetOr(""))
  }

  /** The row condition of the query that runs in `mode`, as the query builder writes it. */
  function Condition(query: string, mode: Mode, fts: Option<FtsIndex>, f: Filters): Tweet -> bool {
    var extra := FilterClauses(f);
    match mode
    case Fts => t => fts.Some? && fts.value.matches(query, DocOf(t)) && AllHold(extra, t)
    case Like => t => LikeMatches(t, query) && AllHold(extra, t)
  }

  lemma ConditionMeaning(query: string, mode: Mode, fts: Option<FtsIndex>, f: Filters)
    ensures forall t :: Condition(query, mode, fts, f)(t) <==> Selected(t, query, mode, fts, f)
  {
    forall t ensures Condition(query, mode, fts, f)(t) <==> Selected(t, query, mode, fts, f) {
      FilterClausesMeaning(f, t);
    }
  }

  /** The ORDER BY of the query that runs in `mode`. */
  function Order(query: string, mode: Mode, fts: Option<FtsIndex>): (le: (Tweet, Tweet) -> bool)
    ensures TotalPreorder(le)
  {
    if mode == Fts && fts.Some? then
      ByRankPreorder(fts.value, query);
      ByRank(fts.value, query)
    else
      NewerOrSamePreorder();
      NewerOrSame
  }

  /** The search runs: there is no query, no full-text index, or an index that accepts the query. */
  predicate QueryRuns(fts: Option<FtsIndex>, query: string) {
    query == "" || fts.None? || fts.value.accepts(query)
  }

  /**
   * `search(conn, q, limit, only_media, min_bookmark, min_fav)` over the tweets table `table`;
   * `fts` is the full-text index, or None when the database has none.
   */
  function Search(table: seq<Tweet>, fts: Option<FtsIndex>, q: Option<string>, limit: int, f: Filters)
    : (r: Result<Hits, SearchError>)
    ensures r.Success? <==> BindsAsInt64(limit, f) && QueryRuns(fts, Query(q))
    ensures !BindsAsInt64(limit, f) ==> r == Failure(ParameterOverflow)
    ensures BindsAsInt64(limit, f) && !QueryRuns(fts, Query(q)) ==> r == Failure(FtsQueryRejected(Query(q)))
    ensures r.Success? ==> (r.value.mode == Fts <==> Query(q) != "" && fts.Some?)
  {
    var query := Query(q);
    var mode := if query != "" && fts.Some? then Fts else Like;
    if !BindsAsInt64(limit, f) then
      Failure(ParameterOverflow)
    else if mode == Fts && !fts.value.accepts(query) then
      Failure(FtsQueryRejected(query))
    else
      var rows := Select(table, Condition(query, mode, fts, f), Order(query, mode, fts), limit);
      Success(Hits(rows, mode))
  }

  /** A successful search is the query of the mode it picked. */
  lemma SearchShape(table: seq<Tweet>, fts: Option<FtsIndex>, q: Option<string>, limit: int, f: Filters)
    requires BindsAsInt64(limit, f) && QueryRuns(fts, Query(q))
    ensures var h := Search(table, fts, q, limit, f).value;
      && (h.mode == Fts ==> fts.Some?)
      && h.rows == Select(table, Condition(Query(q), h.mode, fts, f), Order(Query(q), h.mode, fts), limit)
  {
  }

  /**
   * What a query in `mode` may return from `table`: rows of the table (never more copies than it
   * holds), each meeting the mode's text condition and every active filter, at most `limit` of
   * them when `limit >= 0`, and every qualifying row when fewer than `limit` (or the limit is negative).
   */
  ghost predicate ReturnsQualifying(table: seq<Tweet>, rows: seq<Tweet>, query: string, mode: Mode, fts: Option<FtsIndex>, f: Filters, limit: int) {
    && multiset(rows) <= multiset(table)
    && (forall i :: 0 <= i < |rows| ==> Selected(rows[i], query, mode, fts, f) && PassesFilters(rows[i], f))
    && (limit >= 0 ==> |rows| <= limit)
    && ((limit < 0 || |rows| < limit) ==>
          forall t :: Selected(t, query, mode, fts, f) ==> multiset(rows)[t] == multiset(table)[t])
  }

  /**
   * In both modes, every returned row comes from the table and meets the mode's text condition
   * and every active filter; the limit bounds the count and cuts nothing it does not have to.
   */
  lemma SearchRows(table: seq<Tweet>, fts: Option<FtsIndex>, q: Option<string>, limit: int, f: Filters)
    requires BindsAsInt64(limit, f) && QueryRuns(fts, Query(q))
    ensures var h := Search(table, fts, q, limit, f).value;
      ReturnsQualifying(table, h.rows, Query(q), h.mode, fts, f, limit)
  {
    var h := Search(table, fts, q, limit, f).value;
    SearchShape(table, fts, q, limit, f);
    RowsByMode(table, Query(q), h.mode, fts, f, limit);
  }

  lemma RowsByMode(table: seq<Tweet>, query: string, mode: Mode, fts: Option<FtsIndex>, f: Filters, limit: int)
    ensures ReturnsQualifying(table, Select(table, Condition(query, mode, fts, f), Order(query, mode, fts), limit), query, mode, fts, f, limit)
  {
    SelectMeaning(table, Condition(query, mode, fts, f), Order(query, mode, fts), limit);
    ConditionMeaning(query, mode, fts, f);
  }

  /**
   * Substring results come newest first with undated rows last; full-text results come in
   * non-decreasing bm25 rank.
   */
  lemma SearchOrder(table: seq<Tweet>, fts: Option<FtsIndex>, q: Option<string>, limit: int, f: Filters)
    requires BindsAsInt64(limit, f) && QueryRuns(fts, Query(q))
    ensures var h := Search(table, fts, q, limit, f).value;
      InModeOrder(h.rows, Query(q), h.mode, fts)
  {
    var h := Search(table, fts, q, limit, f).value;
    SearchShape(table, fts, q, limit, f);
    OrderByMode(table, Query(q), h.mode, fts, f, limit);
  }

  /**
   * `rows` come in the order of `mode`: substring results newest first with undated rows last,
   * full-text results in non-decreasing bm25 rank.
   */
  ghost predicate InModeOrder(rows: seq<Tweet>, query: string, mode: Mode, fts: Option<FtsIndex>) {
    && (mode == Like ==>
          forall i, j :: 0 <= i < j < |rows| && rows[j].createdAtUtc.Some? ==>
            rows[i].createdAtUtc.Some? && StrLe(rows[j].createdAtUtc.value, rows[i].createdAtUtc.value))
    && (mode == Fts ==>
          fts.Some? &&
          forall i, j :: 0 <= i < j < |rows| ==> fts.value.bm25(query, DocOf(rows[i])) <= fts.value.bm25(query, DocOf(rows[j])))
  }

  lemma OrderByMode(table: seq<Tweet>, query: string, mode: Mode, fts: Option<FtsIndex>, f: Filters, limit: int)
    requires mode == Fts ==> fts.Some?
    ensures InModeOrder(Select(table, Condition(query, mode, fts, f), Order(query, mode, fts), limit), query, mode, fts)
  {
    var le := Order(query, mode, fts);
    var rows := Select(table, Condition(query, mode, fts, f), le, limit);
    SelectMeaning(table, Condition(query, mode, fts, f), le, limit);
    forall i, j | 0 <= i < j < |rows|
      ensures mode == Like ==> (rows[j].createdAtUtc.Some? ==>
        rows[i].createdAtUtc.Some? && StrLe(rows[j].createdAtUtc.value, rows[i].createdAtUtc.value))
      ensures mode == Fts ==> fts.value.bm25(query, DocOf(rows[i])) <= fts.value.bm25(query, DocOf(rows[j]))
    {
      assert le(rows[i], rows[j]);
      OrderMeaning(query, mode, fts, rows[i], rows[j]);
    }
  }

  /** The limit keeps the best rows: a qualifying row left out never ranks before a returned one. */
  lemma SearchTopRows(table: seq<Tweet>, fts: Option<FtsIndex>, q: Option<string>, limit: int, f: Filters)
    requires BindsAsInt64(limit, f) && QueryRuns(fts, Query(q))
    ensures var h := Search(table, fts, q, limit, f).value;
      KeepsBestRows(table, h.rows, Query(q), h.mode, fts, f)
  {
    var h := Search(table, fts, q, limit, f).value;
    SearchShape(table, fts, q, limit, f);
    TopRowsByMode(table, Query(q), h.mode, fts, f, limit);
  }

  /** No qualifying table row missing from `rows` comes before a row of `rows` in the order of `mode`. */
  ghost predicate KeepsBestRows(table: seq<Tweet>, rows: seq<Tweet>, query: string, mode: Mode, fts: Option<FtsIndex>, f: Filters) {
    forall i, t :: 0 <= i < |rows| && t in multiset(table) - multiset(rows) && Selected(t, query, mode, fts, f) ==>
      && (mode == Like ==> NewerOrSame(rows[i], t))
      && (mode == Fts ==> fts.Some? && fts.value.bm25(query, DocOf(rows[i])) <= fts.value.bm25(query, DocOf(t)))
  }

  lemma TopRowsByMode(table: seq<Tweet>, query: string, mode: Mode, fts: Option<FtsIndex>, f: Filters, limit: int)
    requires mode == Fts ==> fts.Some?
    ensures KeepsBestRows(table, Select(table, Condition(query, mode, fts, f), Order(query, mode, fts), limit), query, mode, fts, f)
  {
    var p := Condition(query, mode, fts, f);
    var le := Order(query, mode, fts);
    var rows := Select(table, p, le, limit);
    SelectTopRows(table, p, le, limit);
    ConditionMeaning(query, mode, fts, f);
    forall i, t | 0 <= i < |rows| && t in multiset(table) - multiset(rows) && Selected(t, query, mode, fts, f)
      ensures && (mode == Like ==> NewerOrSame(rows[i], t))
              && (mode == Fts ==> fts.Some? && fts.value.bm25(query, DocOf(rows[i])) <= fts.value.bm25(query, DocOf(t)))
    {
      assert p(t);
      assert le(rows[i], t);
      OrderMeaning(query, mode, fts, rows[i], t);
    }
  }

  lemma OrderMeaning(query: string, mode: Mode, fts: Option<FtsIndex>, a: Tweet, b: Tweet)
    requires mode == Fts ==> fts.Some?
    ensures mode == Like ==> (Order(query, mode, fts)(a, b) <==> NewerOrSame(a, b))
    ensures mode == Fts ==> (Order(query, mode, fts)(a, b) <==> fts.value.bm25(query, DocOf(a)) <= fts.value.bm25(query, DocOf(b)))
  {
  }

  /** `rows` are filtered table rows, and without a limit they are all of them. */
  ghost predicate ListsFiltered(table: seq<Tweet>, rows: seq<Tweet>, f: Filters, limit: int) {
    && (forall i :: 0 <= i < |rows| ==> PassesFilters(rows[i], f))
    && (limit < 0 ==> forall t :: PassesFilters(t, f) ==> multiset(rows)[t] == multiset(table)[t])
  }

  /**
   * A blank or missing query fails only when a parameter overflows, and otherwise runs the
   * substring fallback, which then lists the filtered table: all of it without a limit.
   */
  lemma BlankQueryListsFiltered(table: seq<Tweet>, fts: Option<FtsIndex>, q: Option<string>, limit: int, f: Filters)
    requires AllSpace(q.GetOr(""))
    ensures var r := Search(table, fts, q, limit, f);
      && (r.Success? <==> BindsAsInt64(limit, f))
      && (r.Success? ==> r.value.mode == Like && ListsFiltered(table, r.value.rows, f, limit))
  {
    assert Query(q) == "";
    if !BindsAsInt64(limit, f) {
      return;
    }
    var h := Search(table, fts, q, limit, f).value;
    SearchRows(table, fts, q, limit, f);
    assert ReturnsQualifying(table, h.rows, "", Like, fts, f, limit);
    forall t | PassesFilters(t, f) ensures Selected(t, "", Like, fts, f) {
      EmptyQueryMatchesAll(t);
    }
  }

  /** Attachment rows in strictly increasing `idx` order. */
  predicate IdxAscending(rows: seq<MediaRow>) {
    forall i, j :: 0 <= i < j < |rows| ==> rows[i].idx < rows[j].idx
  }

  /** `m` placed into `rows` at its `idx` position. */
  function InsertByIdx(m: MediaRow, rows: seq<MediaRow>): (r: seq<MediaRow>)
    requires IdxAscending(rows)
    requires forall i :: 0 <= i < |rows| ==> rows[i].idx != m.idx
    ensures IdxAscending(r)
    ensures forall x :: x in r <==> x == m || x in rows
  {
    if rows == [] || m.idx < rows[0].idx then
      [m] + rows
    else
      var rest := InsertByIdx(m, rows[1..]);
      assert forall x :: x in rows[1..] ==> rows[0].idx < x.idx;
      [rows[0]] + rest
  }

  /**
   * `fetch_media(conn, tweet_id)`: the attachment rows of one tweet, by `idx` ascending. The
   * table's primary key `(tweet_id, idx)` is what makes the order strict.
   */
  method FetchMedia(media: map<(string, int), MediaRow>, tid: string) returns (rows: seq<MediaRow>)
    requires MediaKeyed(media)
    ensures forall m :: m in rows ==> m.tweetId == tid && (tid, m.idx) in media && media[(tid, m.idx)] == m
    ensures forall k :: k in media && media[k].tweetId == tid ==> media[k] in rows
    ensures IdxAscending(rows)
  {
    var pending := set k | k in media && k.0 == tid;
    rows := [];
    while pending != {}
      invariant forall k :: k in pending ==> k in media && k.0 == tid
      invariant forall m :: m in rows ==> m.tweetId == tid && (tid, m.idx) in media && media[(tid, m.idx)] == m
      invariant forall m :: m in rows ==> (tid, m.idx) !in pending
      invariant forall k :: k in media && k.0 == tid && k !in pending ==> media[k] in rows
      invariant IdxAscending(rows)
      decreases |pending|
    {
      var k :| k in pending;
      rows := InsertByIdx(media[k], rows);
      pending := pending - {k};
    }
  }
}

=== FILE: seqs.dfy ===
/**
 * Order-preserving duplicate removal, as the media resolver does with a `seen` set:
 * each value is kept at its first occurrence and later repeats are dropped.
 */
module Seqs {

  predicate NoDuplicates<T(==,!new)>(s: seq<T>) {
    forall i, j :: 0 <= i < j < |s| ==> s[i] != s[j]
  }

  /** Position of the first occurrence of `x` in `s`. */
  function FirstIndex<T(==,!new)>(s: seq<T>, x: T): (k: nat)
    requires x in s
    ensures k < |s| && s[k] == x
    ensures forall j :: 0 <= j < k ==> s[j] != x
  {
    if s[0] == x then 0 else 1 + FirstIndex(s[1..], x)
  }

  /** Appending at the end does not move the first occurrence of a value already present. */
  lemma FirstIndexPrefix<T(!new)>(s: seq<T>, x: T, n: nat)
    requires n <= |s| && x in s[..n]
    ensures FirstIndex(s, x) == FirstIndex(s[..n], x)
  {
    var k := FirstIndex(s[..n], x);
    var m := FirstIndex(s, x);
    assert s[k] == x;
    assert m <= k;
    assert s[..n][m] == x;
  }

  /** Every element of `s` once, at its first occurrence, in the order of those occurrences. */
  function Dedup<T(==,!new)>(s: seq<T>): (r: seq<T>)
    ensures NoDuplicates(r)
    ensures forall x :: x in r <==> x in s
    ensures forall i, j :: 0 <= i < j < |r| ==> FirstIndex(s, r[i]) < FirstIndex(s, r[j])
  {
    if s == [] then []
    else
      var p := s[..|s| - 1];
      var last := s[|s| - 1];
      var d := Dedup(p);
      assert forall x :: x in s <==> x in p || x == last by {
        assert s == p + [last];
      }
      assert forall x :: x in p ==> FirstIndex(s, x) == FirstIndex(p, x) by {
        forall x | x in p ensures FirstIndex(s, x) == FirstIndex(p, x) {
          FirstIndexPrefix(s, x, |s| - 1);
        }
      }
      if last in d then d
      else
        assert FirstIndex(s, last) == |s| - 1;
        d + [last]
  }

  /** The elements of `t` that are not in `s`, in their order in `t`. */
  function Unseen<T(==,!new)>(t: seq<T>, s: seq<T>): (r: seq<T>)
    ensures forall x :: x in r <==> x in t && x !in s
  {
    if t == [] then []
    else if t[|t| - 1] in s then Unseen(t[..|t| - 1], s)
    else Unseen(t[..|t| - 1], s) + [t[|t| - 1]]
  }

  /** Deduplicating `s + t`, with `t` itself free of repeats, keeps `t`'s values that `s` lacks, in order. */
  lemma {:induction false} DedupAppendDistinct<T(!new)>(s: seq<T>, t: seq<T>)
    requires NoDuplicates(t)
    ensures Dedup(s + t) == Dedup(s) + Unseen(t, s)
  {
    if t == [] {
      assert s + t == s;
    } else {
      var t' := t[..|t| - 1];
      var x := t[|t| - 1];
      assert (s + t)[..|s + t| - 1] == s + t';
      assert (s + t)[|s + t| - 1] == x;
      DedupAppendDistinct(s, t');
      assert x !in t';
      assert x in s + t' <==> x in s;
    }
  }

  /** A sequence without repeats is its own deduplication. */
  lemma DedupDistinct<T(!new)>(s: seq<T>)
    requires NoDuplicates(s)
    ensures Dedup(s) == s
  {
    DedupAppendDistinct([], s);
    assert [] + s == s;
    UnseenNothing(s);
  }

  lemma {:induction false} UnseenNothing<T(!new)>(t: seq<T>)
    ensures Unseen(t, []) == t
  {
    if t != [] {
      UnseenNothing(t[..|t| - 1]);
    }
  }
}

=== FILE: store.dfy ===
/**
 * The three base tables of the bookmark store, as maps keyed by their primary keys:
 * `tweets` by id, `media` by `(tweet_id, idx)`, `imports` by source-file path.
 * The full-text shadow table is not stored: it mirrors the text columns of `tweets`
 * (kept so by insert/update/delete triggers), and the query engine reads those columns directly.
 */
module Store {
  import opened Wrappers

  /** A row of `tweets`. Counters are NULL when the source value was not an integer. */
  datatype Tweet = Tweet(
    id: string,
    createdAtUtc: Option<string>,
    createdAtRaw: string,
    fullText: string,
    screenName: string,
    name: string,
    profileImageUrl: string,
    profileImageFile: Option<string>,
    tweetUrl: string,
    favoriteCount: Option<int>,
    retweetCount: Option<int>,
    bookmarkCount: Option<int>,
    quoteCount: Option<int>,
    replyCount: Option<int>,
    viewsCount: Option<int>,
    inReplyTo: Option<string>,
    hasMedia: bool)

  /** A row of `media`: the `idx`-th attachment of tweet `tweetId`. */
  datatype MediaRow = MediaRow(
    tweetId: string,
    idx: int,
    kind: string,
    url: string,
    thumbnailUrl: string,
    originalUrl: string,
    localFile: Option<string>)

  /** A row of `imports`: the fingerprint of a source file when it was last imported. */
  datatype ImportRecord = ImportRecord(fileSize: int, fileMtime: real, importedAtUtc: string)

  datatype Store = Store(
    tweets: map<string, Tweet>,
    media: map<(string, int), MediaRow>,
    imports: map<string, ImportRecord>)

  /** SQLite's INTEGER range; binding a Python `int` outside it raises `OverflowError`. */
  const Int64Min: int := -0x8000_0000_0000_0000
  const Int64Max: int := 0x7FFF_FFFF_FFFF_FFFF

  predicate IsInt64(n: int) {
    Int64Min <= n <= Int64Max
  }

  /** Every media row is stored under its own `(tweet_id, idx)`. */
  predicate MediaKeyed(media: map<(string, int), MediaRow>) {
    forall k :: k in media ==> media[k].tweetId == k.0 && media[k].idx == k.1
  }

  /**
   * What the ingester maintains: tweets are stored under their own id, media rows under their
   * own key, and every media row belongs to a stored tweet.
   */
  predicate WellFormed(s: Store) {
    && (forall id :: id in s.tweets ==> s.tweets[id].id == id)
    && MediaKeyed(s.media)
    && (forall k :: k in s.media ==> k.0 in s.tweets)
  }
}

=== FILE: text.dfy ===
/**
 * Character-level helpers shared by the resolver, the ingester and the query engine:
 * Python's `str.strip()`, ASCII case folding, substring search and the binary
 * (code-point) ordering SQLite uses to compare TEXT values.
 */
module Text {

  /** Python's `str.isspace()` for one character. */
  predicate IsSpace(c: char) {
    || c == ' '
    || ('\t' <= c <= '\r')
    || ('\U{1C}' <= c <= '\U{1F}')
    || c == '\U{85}' || c == '\U{A0}' || c == '\U{1680}'
    || ('\U{2000}' <= c <= '\U{200A}')
    || c == '\U{2028}' || c == '\U{2029}' || c == '\U{202F}' || c == '\U{205F}' || c == '\U{3000}'
  }

  predicate AllSpace(s: string) {
    forall i :: 0 <= i < |s| ==> IsSpace(s[i])
  }

  /** `s.lstrip()`: the suffix of `s` left after dropping its leading whitespace. */
  function TrimStart(s: string): (r: string)
    ensures |r| <= |s| && r == s[|s| - |r|..]
    ensures AllSpace(s[..|s| - |r|])
    ensures r == [] || !IsSpace(r[0])
  {
    if s == [] || !IsSpace(s[0]) then s else TrimStart(s[1..])
  }

  /** `s.rstrip()`: the prefix of `s` left after dropping its trailing whitespace. */
  function TrimEnd(s: string): (r: string)
    ensures |r| <= |s| && r == s[..|r|]
    ensures AllSpace(s[|r|..])
    ensures r == [] || !IsSpace(r[|r| - 1])
  {
    if s == [] || !IsSpace(s[|s| - 1]) then s else TrimEnd(s[..|s| - 1])
  }

  /** `r` is `s` with the whitespace-only prefix `s[..i]` and a whitespace-only suffix removed. */
  predicate StrippedAt(s: string, r: string, i: int) {
    0 <= i <= |s| - |r| && r == s[i..i + |r|] && AllSpace(s[..i]) && AllSpace(s[i + |r|..])
  }

  /** Python's `s.strip()`. */
  function Strip(s: string): (r: string)
    ensures exists i :: StrippedAt(s, r, i)
    ensures r == [] || (!IsSpace(r[0]) && !IsSpace(r[|r| - 1]))
    ensures r == [] <==> AllSpace(s)
    ensures forall c :: c in r ==> c in s
  {
    var a := TrimStart(s);
    var r := TrimEnd(a);
    StripSplit(s, a, r);
    r
  }

  lemma StripSplit(s: string, a: string, r: string)
    requires |a| <= |s| && a == s[|s| - |a|..] && AllSpace(s[..|s| - |a|]) && (a == [] || !IsSpace(a[0]))
    requires |r| <= |a| && r == a[..|r|] && AllSpace(a[|r|..]) && (r == [] || !IsSpace(r[|r| - 1]))
    ensures StrippedAt(s, r, |s| - |a|)
    ensures r == [] <==> AllSpace(s)
    ensures r == [] || !IsSpace(r[0])
    ensures forall c :: c in r ==> c in s
  {
    var i := |s| - |a|;
    assert forall k :: 0 <= k < |r| ==> r[k] == s[i + k];
    assert s[i + |r|..] == a[|r|..];
    if r == [] {
      assert a[|r|..] == a;
      assert s == s[..i] + a;
    } else {
      assert s[i] == r[0];
    }
  }

  /** A string without surrounding whitespace is its own strip. */
  lemma StripNoSpaceEnds(s: string)
    requires s == [] || (!IsSpace(s[0]) && !IsSpace(s[|s| - 1]))
    ensures Strip(s) == s
  {
  }

  /** ASCII upper-case letters folded to lower case; every other character is kept. */
  function LowerChar(c: char): (r: char)
    ensures 'A' <= c <= 'Z' ==> r as int == c as int + 32 && 'a' <= r <= 'z'
    ensures !('A' <= c <= 'Z') ==> r == c
  {
    if 'A' <= c <= 'Z' then (c as int + 32) as char else c
  }

  /** ASCII lower-casing of a whole string, character by character. */
  function Lower(s: string): (r: string)
    ensures |r| == |s|
    ensures forall i :: 0 <= i < |s| ==> r[i] == LowerChar(s[i])
  {
    if s == [] then [] else [LowerChar(s[0])] + Lower(s[1..])
  }

  /** `needle` occurs in `hay` starting at position `i`. */
  predicate OccursAt(needle: string, hay: string, i: int) {
    0 <= i && i + |needle| <= |hay| && hay[i..i + |needle|] == needle
  }

  /** Python's `needle in hay` for strings. */
  predicate Contains(hay: string, needle: string) {
    exists i | 0 <= i <= |hay| :: OccursAt(needle, hay, i)
  }

  /** `hay` ends with `suffix`. */
  predicate EndsWith(hay: string, suffix: string) {
    |suffix| <= |hay| && hay[|hay| - |suffix|..] == suffix
  }

  /** The text a C string holds: everything before the first U+0000, or all of `s` without one. */
  function BeforeNul(s: string): (r: string)
    ensures |r| <= |s| && r == s[..|r|]
    ensures '\0' !in r
    ensures |r| < |s| ==> s[|r|] == '\0'
    ensures '\0' !in s ==> r == s
  {
    if s == [] || s[0] == '\0' then
      []
    else
      assert '\0' !in s ==> '\0' !in s[1..] by {
        assert forall c :: c in s[1..] ==> c in s;
      }
      assert s == [s[0]] + s[1..];
      [s[0]] + BeforeNul(s[1..])
  }

  lemma EmptyOccursEverywhere(hay: string)
    ensures Contains(hay, "")
  {
    assert OccursAt("", hay, 0);
  }

  /** A case-exact occurrence survives ASCII case folding of both sides. */
  lemma ContainsLower(hay: string, needle: string)
    requires Contains(hay, needle)
    ensures Contains(Lower(hay), Lower(needle))
  {
    var i :| 0 <= i <= |hay| && OccursAt(needle, hay, i);
    assert Lower(hay)[i..i + |needle|] == Lower(needle);
    assert OccursAt(Lower(needle), Lower(hay), i);
  }

  /** Binary (code-point) ordering of strings, as SQLite's BINARY collation compares TEXT. */
  predicate StrLe(a: string, b: string) {
    a == [] || (b != [] && (a[0] < b[0] || (a[0] == b[0] && StrLe(a[1..], b[1..]))))
  }

  lemma {:induction false} StrLeTotal(a: string, b: string)
    ensures StrLe(a, b) || StrLe(b, a)
  {
    if a != [] && b != [] && a[0] == b[0] {
      StrLeTotal(a[1..], b[1..]);
    }
  }

  lemma {:induction false} StrLeTransitive(a: string, b: string, c: string)
    requires StrLe(a, b) && StrLe(b, c)
    ensures StrLe(a, c)
  {
    if a != [] && a[0] == b[0] && b[0] == c[0] {
      StrLeTransitive(a[1..], b[1..], c[1..]);
    }
  }

  lemma {:induction false} StrLeAntisymmetric(a: string, b: string)
    requires StrLe(a, b) && StrLe(b, a)
    ensures a == b
  {
    if a != [] {
      StrLeAntisymmetric(a[1..], b[1..]);
      assert a == [a[0]] + a[1..];
      assert b == [b[0]] + b[1..];
    }
  }
}

=== FILE: urls.dfy ===
/**
 * The part of Python's `urllib.parse` the media resolver relies on: `urlparse(url).path`,
 * `urlparse(url).query`, `os.path.basename` of the path, and the first `format` value
 * `parse_qs` collects from the query. The splitting rules follow CPython 3.12.
 */
module Urls {
  import opened Text

  /** Position of the first character of `s` that is in `stops`, or `|s|` when there is none. */
  function FindAny(s: string, stops: set<char>): (i: nat)
    ensures i <= |s|
    ensures forall k :: 0 <= k < i ==> s[k] !in stops
    ensures i < |s| ==> s[i] in stops
  {
    if s == [] || s[0] in stops then 0 else 1 + FindAny(s[1..], stops)
  }

  /** The part of `s` after its last `c`; all of `s` when `c` does not occur. */
  function AfterLast(s: string, c: char): (r: string)
    ensures c !in r
    ensures |r| <= |s| && r == s[|s| - |r|..]
    ensures |r| < |s| ==> s[|s| - |r| - 1] == c
  {
    if s == [] || s[|s| - 1] == c then []
    else
      var r := AfterLast(s[..|s| - 1], c);
      assert (s[..|s| - 1])[|s| - 1 - |r|..] == s[|s| - 1 - |r|..|s| - 1];
      r + [s[|s| - 1]]
  }

  /** C0 control characters and space: what `urlsplit` strips from the front of a URL. */
  predicate IsC0OrSpace(c: char) {
    c <= ' '
  }

  function LStripC0(s: string): (r: string)
    ensures |r| <= |s| && r == s[|s| - |r|..]
    ensures forall k :: 0 <= k < |s| - |r| ==> IsC0OrSpace(s[k])
    ensures r == [] || !IsC0OrSpace(r[0])
  {
    if s == [] || !IsC0OrSpace(s[0]) then s else LStripC0(s[1..])
  }

  /** Tab, carriage return and line feed, which `urlsplit` deletes wherever they occur. */
  predicate IsUnsafe(c: char) {
    c == '\t' || c == '\r' || c == '\n'
  }

  function RemoveUnsafe(s: string): (r: string)
    ensures forall c :: c in r <==> c in s && !IsUnsafe(c)
    ensures |s| == 1 ==> r == if IsUnsafe(s[0]) then [] else s
    ensures (forall k :: 0 <= k < |s| ==> !IsUnsafe(s[k])) ==> r == s
  {
    if s == [] then []
    else (if IsUnsafe(s[0]) then [] else [s[0]]) + RemoveUnsafe(s[1..])
  }

  /**
   * Deleting characters keeps the order of the rest: removing them from a concatenation is
   * removing them from each part. With the single-character case this fixes the result.
   */
  lemma {:induction false} RemoveUnsafeAppend(a: string, b: string)
    ensures RemoveUnsafe(a + b) == RemoveUnsafe(a) + RemoveUnsafe(b)
  {
    if a == [] {
      assert a + b == b;
    } else {
      assert (a + b)[1..] == a[1..] + b;
      RemoveUnsafeAppend(a[1..], b);
    }
  }

  predicate IsAsciiAlpha(c: char) {
    ('a' <= c <= 'z') || ('A' <= c <= 'Z')
  }

  /** Letters, digits, `+`, `-` and `.`: the characters a URL scheme may contain. */
  predicate IsSchemeChar(c: char) {
    IsAsciiAlpha(c) || ('0' <= c <= '9') || c == '+' || c == '-' || c == '.'
  }

  /** Schemes for which `urlparse` splits `;params` off the last path segment. */
  const UsesParams: set<string> :=
    {"", "ftp", "hdl", "prospero", "http", "imap", "https", "shttp", "rtsp", "rtsps",
     "rtspu", "sip", "sips", "mms", "sftp", "tel"}

  datatype UrlParts = UrlParts(scheme: string, netloc: string, path: string, query: string, fragment: string)

  /** `s.split(c, 1)` when `c` occurs, otherwise `(s, "")`. */
  function SplitOnce(s: string, c: char): (p: (string, string))
    ensures c !in p.0
    ensures c in s ==> s == p.0 + [c] + p.1
    ensures c !in s ==> p == (s, "")
  {
    var i := FindAny(s, {c});
    if i < |s| then
      assert s == s[..i] + [c] + s[i + 1..];
      (s[..i], s[i + 1..])
    else
      (s, "")
  }

  /** A URL scheme: an ASCII letter followed by letters, digits, `+`, `-` and `.`. */
  predicate IsScheme(s: string) {
    |s| > 0 && IsAsciiAlpha(s[0]) && forall k :: 0 <= k < |s| ==> IsSchemeChar(s[k])
  }

  /**
   * A leading `scheme:`, lower-cased, exactly when the text before the first `:` is a valid
   * scheme; otherwise nothing is taken off.
   */
  function SplitScheme(url: string): (p: (string, string))
    ensures var i := FindAny(url, {':'});
      && (p.0 != "" <==> i < |url| && IsScheme(url[..i]))
      && (p.0 != "" ==> p.0 == Lower(url[..i]) && p.1 == url[i + 1..])
      && (p.0 == "" ==> p.1 == url)
  {
    var i := FindAny(url, {':'});
    if 0 < i < |url| && IsAsciiAlpha(url[0]) && (forall k :: 0 <= k < i ==> IsSchemeChar(url[k])) then
      (Lower(url[..i]), url[i + 1..])
    else
      ("", url)
  }

  /** The characters that end a network location. */
  const NetlocEnds: set<char> := {'/', '?', '#'}

  /** A `//netloc` prefix, which runs up to the first `/`, `?` or `#`. */
  function SplitNetloc(url: string): (p: (string, string))
    ensures !(|url| >= 2 && url[..2] == "//") ==> p == ("", url)
    ensures |url| >= 2 && url[..2] == "//" ==>
      && url == "//" + p.0 + p.1
      && (forall k :: 0 <= k < |p.0| ==> p.0[k] !in NetlocEnds)
      && (p.1 == [] || p.1[0] in NetlocEnds)
  {
    if |url| >= 2 && url[..2] == "//" then
      var rest := url[2..];
      var d := FindAny(rest, NetlocEnds);
      assert rest == rest[..d] + rest[d..];
      assert url == "//" + rest;
      (rest[..d], rest[d..])
    else
      ("", url)
  }

  /**
   * `urlsplit(url)`: after the cleanup, the scheme and the network location come off the front;
   * the rest is the path, then `?query` up to the first `#`, then `#fragment`.
   */
  function Split(url: string): (u: UrlParts)
    ensures var afterScheme := SplitScheme(RemoveUnsafe(LStripC0(url)));
      var afterNetloc := SplitNetloc(afterScheme.1);
      && u.scheme == afterScheme.0 && u.netloc == afterNetloc.0
      && (u.path, u.query, u.fragment) == SplitTail(afterNetloc.1)
  {
    var clean := RemoveUnsafe(LStripC0(url));
    var (scheme, afterScheme) := SplitScheme(clean);
    var (netloc, afterNetloc) := SplitNetloc(afterScheme);
    var (path, query, fragment) := SplitTail(afterNetloc);
    UrlParts(scheme, netloc, path, query, fragment)
  }

  /**
   * What follows the network location, as path, query and fragment: the fragment after the
   * first `#`, the query after the first `?` before it. Joining the parts back with their
   * separators gives the text again.
   */
  function SplitTail(rest: string): (t: (string, string, string))
    ensures '#' !in t.0 && '?' !in t.0 && '#' !in t.1
    ensures var hasFragment := '#' in rest;
      var hasQuery := '?' in SplitOnce(rest, '#').0;
      && rest == t.0 + (if hasQuery then "?" + t.1 else "") + (if hasFragment then "#" + t.2 else "")
      && (hasQuery || t.1 == "")
      && (hasFragment || t.2 == "")
  {
    var f := SplitOnce(rest, '#');
    var q := SplitOnce(f.0, '?');
    assert f.0 + (if '#' in rest then "#" + f.1 else "") == rest;
    assert q.0 + (if '?' in f.0 then "?" + q.1 else "") == f.0;
    (q.0, q.1, f.1)
  }

  /**
   * `_splitparams(path)[0]`: the path cut at the first `;` that follows its last `/`
   * (or at its first `;` when it has no `/`).
   */
  function CutParams(path: string): (r: string)
    ensures |r| <= |path| && r == path[..|r|]
    ensures ';' !in AfterLast(r, '/')
    ensures |r| < |path| ==> path[|r|] == ';' && '/' !in path[|r|..]
  {
    var segment := AfterLast(path, '/');
    var dir := path[..|path| - |segment|];
    assert path == dir + segment;
    var i := FindAny(segment, {';'});
    CutAt(dir, segment, i);
    dir + segment[..i]
  }

  /** The facts about cutting `dir + segment` inside its last segment, before the first `;`. */
  lemma CutAt(dir: string, segment: string, i: nat)
    requires dir == [] || dir[|dir| - 1] == '/'
    requires '/' !in segment
    requires i <= |segment| && i == FindAny(segment, {';'})
    ensures ';' !in AfterLast(dir + segment[..i], '/')
    ensures i < |segment| ==> (dir + segment)[|dir| + i] == ';' && '/' !in (dir + segment)[|dir| + i..]
  {
    var head := segment[..i];
    assert '/' !in head && ';' !in head by {
      forall k | 0 <= k < i ensures head[k] != '/' && head[k] != ';' {
        assert segment[k] in segment;
        assert segment[k] !in {';'};
      }
    }
    AfterLastAppend(dir, head, '/');
    if i < |segment| {
      TailOfAppend(dir, segment, i);
    }
  }

  lemma TailOfAppend(dir: string, segment: string, i: nat)
    requires i < |segment| && '/' !in segment
    ensures (dir + segment)[|dir| + i] == segment[i]
    ensures '/' !in (dir + segment)[|dir| + i..]
  {
    var t := (dir + segment)[|dir| + i..];
    assert t == segment[i..];
    forall k | 0 <= k < |t| ensures t[k] != '/' {
      assert t[k] == segment[i + k];
    }
  }

  /** Text without `c` that follows a `c` (or starts the string) is what comes after the last `c`. */
  lemma {:induction false} AfterLastAppend(x: string, y: string, c: char)
    requires x == [] || x[|x| - 1] == c
    requires c !in y
    ensures AfterLast(x + y, c) == y
  {
    if y == [] {
      assert x + y == x;
    } else {
      var front, last := y[..|y| - 1], y[|y| - 1];
      assert y == front + [last];
      AfterLastAppend(x, front, c);
      var s := x + y;
      assert s == (x + front) + [last];
      assert s[..|s| - 1] == x + front;
    }
  }

  /** `urlparse(url)`: `urlsplit` followed by the `;params` split for the schemes that use it. */
  function Parse(url: string): (u: UrlParts)
    ensures u.(path := "") == Split(url).(path := "")
    ensures u.path == if Split(url).scheme in UsesParams then CutParams(Split(url).path) else Split(url).path
  {
    var u := Split(url);
    if u.scheme in UsesParams && ';' in u.path then u.(path := CutParams(u.path)) else u
  }

  /** `os.path.basename(urlparse(url).path).strip()`. */
  function BaseName(url: string): (b: string)
    ensures '/' !in b
    ensures b == [] || (!IsSpace(b[0]) && !IsSpace(b[|b| - 1]))
    ensures exists i :: StrippedAt(AfterLast(Parse(url).path, '/'), b, i)
  {
    Strip(AfterLast(Parse(url).path, '/'))
  }

  /** Python's `s.split(c)`. */
  function SplitOn(s: string, c: char): (parts: seq<string>)
    ensures |parts| >= 1
    ensures forall k :: 0 <= k < |parts| ==> c !in parts[k]
    ensures Join(parts, c) == s
    decreases |s|
  {
    if c !in s then [s]
    else
      var (head, tail) := SplitOnce(s, c);
      [head] + SplitOn(tail, c)
  }

  /** Python's `c.join(parts)`. */
  function Join(parts: seq<string>, c: char): string
    requires |parts| >= 1
  {
    if |parts| == 1 then parts[0] else parts[0] + [c] + Join(parts[1..], c)
  }

  /** Splitting a join of `c`-free parts gives the parts back. */
  lemma {:induction false} SplitJoin(parts: seq<string>, c: char)
    requires |parts| >= 1
    requires forall k :: 0 <= k < |parts| ==> c !in parts[k]
    ensures SplitOn(Join(parts, c), c) == parts
  {
    if |parts| > 1 {
      var s := Join(parts, c);
      var tail := Join(parts[1..], c);
      assert s == parts[0] + [c] + tail;
      assert s[|parts[0]|] == c;
      var i := FindAny(s, {c});
      assert i == |parts[0]|;
      assert s[..i] == parts[0];
      assert s[i + 1..] == tail;
      SplitJoin(parts[1..], c);
    }
  }

  /** `s.replace("+", " ")`, as `parse_qs` decodes names and values. */
  function PlusToSpace(s: string): (r: string)
    ensures |r| == |s|
    ensures forall k :: 0 <= k < |s| ==> r[k] == (if s[k] == '+' then ' ' else s[k])
  {
    if s == [] then [] else [if s[0] == '+' then ' ' else s[0]] + PlusToSpace(s[1..])
  }

  /**
   * The value of the first `format=<value>` pair with a non-empty value, or `""` when there is none:
   * `parse_qs` drops pairs without `=` and pairs with an empty value, and keeps the values of
   * a repeated key in order, so `qs.get("format", [""])[0]` is this value.
   */
  function FirstFormat(pairs: seq<string>): (v: string)
    ensures v == "" <==> forall k :: 0 <= k < |pairs| ==> !IsFormatPair(pairs[k])
    ensures v != "" ==> exists k :: FirstFormatPairAt(pairs, k) && v == PlusToSpace(SplitOnce(pairs[k], '=').1)
  {
    if pairs == [] then ""
    else if IsFormatPair(pairs[0]) then
      assert FirstFormatPairAt(pairs, 0);
      PlusToSpace(SplitOnce(pairs[0], '=').1)
    else
      var v := FirstFormat(pairs[1..]);
      assert forall k :: 1 <= k < |pairs| ==> pairs[k] == pairs[1..][k - 1];
      assert v != "" ==> exists k :: FirstFormatPairAt(pairs, k) && v == PlusToSpace(SplitOnce(pairs[k], '=').1) by {
        if v != "" {
          var k :| FirstFormatPairAt(pairs[1..], k) && v == PlusToSpace(SplitOnce(pairs[1..][k], '=').1);
          assert FirstFormatPairAt(pairs, k + 1);
        }
      }
      v
  }

  /** A `format=<value>` pair with a non-empty value: one that `parse_qs` keeps under `format`. */
  predicate IsFormatPair(pair: string) {
    '=' in pair && SplitOnce(pair, '=').0 == "format" && SplitOnce(pair, '=').1 != ""
  }

  /** `pairs[k]` is the first format pair. */
  predicate FirstFormatPairAt(pairs: seq<string>, k: int) {
    0 <= k < |pairs| && IsFormatPair(pairs[k]) && forall j :: 0 <= j < k ==> !IsFormatPair(pairs[j])
  }

  /** `(parse_qs(urlparse(url).query).get("format", [""])[0] or "").lower()`. */
  function FormatParam(url: string): (f: string)
    ensures var pairs := SplitOn(Parse(url).query, '&');
      && (f == "" <==> forall k :: 0 <= k < |pairs| ==> !IsFormatPair(pairs[k]))
      && (f != "" ==> exists k :: FirstFormatPairAt(pairs, k) && f == Lower(PlusToSpace(SplitOnce(pairs[k], '=').1)))
  {
    var pairs := SplitOn(Parse(url).query, '&');
    var v := FirstFormat(pairs);
    assert v != "" ==> exists k :: FirstFormatPairAt(pairs, k) && Lower(v) == Lower(PlusToSpace(SplitOnce(pairs[k], '=').1)) by {
      if v != "" {
        var k :| FirstFormatPairAt(pairs, k) && v == PlusToSpace(SplitOnce(pairs[k], '=').1);
        assert Lower(v) == Lower(PlusToSpace(SplitOnce(pairs[k], '=').1));
      }
    }
    Lower(v)
  }
}

=== FILE: wrappers.dfy ===
/** Option and Result, used for the nullable columns and the error paths of the model. */
module Wrappers {

  /** A value that may be missing: SQL NULL, Python None, or an absent JSON key. */
  datatype Option<+T> = None | Some(value: T) {

    /** The wrapped value, or `default` when there is none. */
    function GetOr(default: T): T {
      match this
      case Some(v) => v
      case None => default
    }
  }

  /** The outcome of an operation that may raise: a value, or the error it raised. */
  datatype Result<+R, +E> = Success(value: R) | Failure(error: E) {

    predicate IsFailure() {
      Failure?
    }

    function PropagateFailure<U>(): Result<U, E>
      requires Failure?
    {
      Failure(error)
    }

    function Extract(): R
      requires Success?
    {
      value
    }
  }
}
